=== FILE: README.md ===
# DreamBooth instance dataset and local storage backend

This project models two parts of the training tool's data path in Dafny.

**The DreamBooth instance dataset.** The constructor checks that the instance root exists, lists its entries once and opens every image. Each image index goes into the aspect-ratio bucket nearest to the image's width/height ratio. Unless original images are used, the size is first rounded to multiples of 64, with the short side scaled to the target resolution. `__getitem__` wraps the index around the number of images. The prompt comes from the file name: underscores become spaces, the text is cut before "upscaled by" and then before "upscaled beta", and the instance prompt may be prepended.

**The local storage backend.** `list_files` walks a directory depth first. At each directory it yields the directory's own glob matches, then descends into real subdirectories and into the targets of symbolic links to directories. It then groups the files by parent directory in first-seen order. `read_image` strips NUL characters from the path before opening it. `exists`, `delete` and `create_directory` act on a store of paths.

Modules:
- `Outcomes`: `Option`, `Result`, and one `Error` constructor per exception raised.
- `Text`: `str.replace`, `str.split(m)[0]`, `PurePath.name` and `PurePath.stem`.
- `FileSystem`: an abstract directory tree. Each path maps to a file, a directory with its ordered entries, or a symbolic link with its raw target. Link resolution is bounded by the kernel's 40-hop limit.
- `LocalBackend`: `helpers/data_backend/local.py`.
- `DreamBooth`: `helpers/dreambooth_dataset.py`.

Parameters stand in for what the model cannot see:
- The operating system's tree is a `Tree` value.
- Image decoding is `imageAt: Path -> Option<Image>`. An image is known only by its width and height.
- The glob pattern is `matches: Path -> bool`.
- `Path.parent` and `Path.absolute` are `parentOf` and `absolute`.
- `Image.open` in `read_image` is `open`.

Termination of the walk, which has no cycle guard, rests on a caller-supplied `rank` that every descent lowers (`Ranked`).

Code behaviours worth knowing:
- **Caption trailing space.** `my_cat_upscaled_by_2x` gives the caption `"my cat "` with a trailing space. The split keeps the space before the marker (`DreamBooth.CaptionExample`).
- **Root that is not a directory.** `list_files` on such a root raises from `iterdir` (`NotADirectory`).
- **Missing root.** `list_files` on a root that does not exist raises from `iterdir` (`FileNotFound`, or `SymlinkLoop` when the root is a link chain longer than 40 links).

## Model

| member | source | states |
|---|---|---|
| Text.ReplaceChar | helpers/dreambooth_dataset.py:85 | same length; each position holds the replacement where the input held the old character and the input character elsewhere; no old character is left |
| Text.RemoveChar | helpers/data_backend/local.py:81 | the removed character is gone; every other character keeps its count; the length drops by the number removed; a string without it is unchanged |
| Text.RemoveCharAppend | helpers/data_backend/local.py:81 | removal distributes over concatenation, so the kept characters keep their relative order |
| Text.CutAt | helpers/dreambooth_dataset.py:86-87 | the result is a prefix of the input with no occurrence of the marker starting inside it; it is the whole input or ends exactly where the marker begins |
| Text.CutAtFirstOccurrence | helpers/dreambooth_dataset.py:86-87 | the cut is exactly the text before the first occurrence of the marker |
| Text.CutAtShort | helpers/dreambooth_dataset.py:86-87 | text shorter than the marker is kept whole |
| Text.CutAtRemovesMarker | helpers/dreambooth_dataset.py:86-87 | the cut text does not contain the marker, and the input contains the marker if and only if the cut shortens it |
| Text.CutAtKeepsAbsence | helpers/dreambooth_dataset.py:86-87 | cutting at one marker never introduces an occurrence of another |
| Text.LastIndexOf | helpers/dreambooth_dataset.py:81-83 | the position of the last occurrence of the character, or -1 when there is none |
| Text.BaseName | helpers/dreambooth_dataset.py:81-83 | the final path component: a slash-free suffix of the path preceded by a slash or by nothing |
| Text.Stem | helpers/dreambooth_dataset.py:81-83 | the name itself, or the prefix before a last dot that is neither first nor last, with no dot after it; the stem differs from the name if and only if such a dot exists |
| FileSystem.Resolve | helpers/data_backend/local.py:30 | a resolved path never names a link; a non-link entry resolves to itself; a missing path resolves to nothing |
| FileSystem.Listing | helpers/data_backend/local.py:57 | a directory lists its stored entries in order; a path that is not a directory lists nothing |
| FileSystem.Exists | helpers/data_backend/local.py:30 | no contract of its own: `os.path.exists` is the path resolving within 40 links; `LinkToDirectory`, `DanglingLink` and `ResolveFailure` state what that means |
| FileSystem.IsDir | helpers/data_backend/local.py:58-62 | no contract of its own: `Path.is_dir` is the path resolving to a directory; `LinkToDirectory` and `DanglingLink` state it for links |
| FileSystem.LinkToDirectory | helpers/data_backend/local.py:58-63 | a link whose target is a directory exists, is a directory and lists exactly the target's entries |
| FileSystem.DanglingLink | helpers/data_backend/local.py:58-63 | a link whose target is missing does not exist, is no directory and lists nothing |
| FileSystem.ResolveFailure | helpers/data_backend/local.py:57 | a path fails to resolve if and only if its link chain dangles or runs past the hop limit, and never for both reasons |
| FileSystem.SelfLinkLoops | helpers/data_backend/local.py:57 | a link to itself is still a link after any number of hops |
| FileSystem.SelfLinkIsLoopNotMissing | helpers/data_backend/local.py:57 | a link to itself does not exist and fails as a loop (ELOOP), not as a missing path |
| LocalBackend.Descent | helpers/data_backend/local.py:58-63 | a real directory is entered as itself; a link is entered at its target exactly when the target is a directory; a missing entry or a file is never entered; whatever is entered is a directory |
| LocalBackend.Filter | helpers/data_backend/local.py:55 | exactly the matching entries are kept, and never more than there were |
| LocalBackend.Glob | helpers/data_backend/local.py:55 | the directory's own matches are exactly its listed entries that satisfy the pattern; a path that is not a directory matches nothing |
| LocalBackend.Walk | helpers/data_backend/local.py:54-63 | no contract of its own: the walk is the own matches followed by `WalkFrom(0)`; `WalkMatches`, `OwnMatchesFirst`, `LaterMatchFromDescent`, `SubdirectoryWalked` and `SymlinkWalkedAtTarget` state what it yields |
| LocalBackend.WalkFrom | helpers/data_backend/local.py:57-63 | no contract of its own: the entries' contributions from the i-th on, concatenated in listing order; `WalkFromStep` and `WalkFromInfix` state its shape |
| LocalBackend.EntryWalk | helpers/data_backend/local.py:58-63 | no contract of its own: one entry's contribution; `NonDirectoryContributesNothing` and `SubdirectoryWalked` state both cases |
| LocalBackend.WalkMatches | helpers/data_backend/local.py:54-63 | every path the recursive walk yields matches the glob pattern |
| LocalBackend.WalkFromMatches | helpers/data_backend/local.py:57-63 | the walks of a directory's later entries yield only matching paths |
| LocalBackend.WalkFromSource | helpers/data_backend/local.py:57-63 | each path produced after the own matches comes from the walk of one identified entry |
| LocalBackend.WalkFromInfix | helpers/data_backend/local.py:57-63 | each entry's contribution appears contiguously, in listing order, inside the walk of the entries |
| LocalBackend.WalkFromStep | helpers/data_backend/local.py:57-63 | the walk of entries i onwards is entry i's contribution followed by the walk of the rest |
| LocalBackend.OwnMatchesFirst | helpers/data_backend/local.py:55-56 | a directory's own glob matches are yielded before anything from its subdirectories |
| LocalBackend.LaterMatchFromDescent | helpers/data_backend/local.py:57-63 | every later path comes from the walk of a listed subdirectory or link target, named by the lemma |
| LocalBackend.OwnMatchesHaveParent | helpers/data_backend/local.py:55-56 | a real directory's own matches all have that directory as parent |
| LocalBackend.SymlinkWalkedAtTarget | helpers/data_backend/local.py:60-63 | a link to a directory is walked at its target: the target's whole walk is an infix of the listing directory's walk |
| LocalBackend.SubdirectoryWalked | helpers/data_backend/local.py:58-59 | the whole walk of a real subdirectory appears contiguously inside its parent's walk |
| LocalBackend.NonDirectoryContributesNothing | helpers/data_backend/local.py:58-63 | a missing entry, a file, or a link whose target is not a directory contributes nothing to the walk |
| LocalBackend.DistinctParentsSpec | helpers/data_backend/local.py:68-72 | the dict's keys are free of repetitions and are exactly the parents of the walked paths |
| LocalBackend.FilesUnderSpec | helpers/data_backend/local.py:68-73 | a parent has files if and only if it is a key; every walked path is filed in absolute form under its parent; no list is longer than the walk |
| LocalBackend.DistinctParentsSnoc | helpers/data_backend/local.py:70-72 | reading one more path adds its parent as the last key, unless it is already a key |
| LocalBackend.FilesUnderSnoc | helpers/data_backend/local.py:70-73 | reading one more path appends its absolute form to its own parent's list and to no other |
| LocalBackend.FilesByParentStep | helpers/data_backend/local.py:70-73 | one loop turn creates the parent's empty list when missing, appends the path to it, and leaves every other entry alone |
| LocalBackend.GroupByParent | helpers/data_backend/local.py:68-75 | the loop's result is one group per distinct parent in first-seen order, holding that parent's files |
| LocalBackend.GroupsOf | helpers/data_backend/local.py:75 | one triple per key, in key order, with an empty middle list and the key's files |
| LocalBackend.GroupedFromDict | helpers/data_backend/local.py:68-75 | the finished dict's keys are all present, and reading it in insertion order gives the grouping's specification |
| LocalBackend.TotalBump | helpers/data_backend/local.py:73 | appending one file to one group raises the total file count by exactly one |
| LocalBackend.GroupedStepSeen | helpers/data_backend/local.py:71-73 | a path whose parent was seen grows only that parent's group, keeping the group order |
| LocalBackend.GroupedStepNew | helpers/data_backend/local.py:71-73 | a path with a new parent opens a new last group holding just that path |
| LocalBackend.GroupSizesSum | helpers/data_backend/local.py:68-75 | grouping neither loses nor duplicates a path: the group sizes add up to the number of walked paths |
| LocalBackend.DistinctParentsPrefix | helpers/data_backend/local.py:68-72 | keys seen in a prefix of the walk come first, in the same order (insertion order) |
| LocalBackend.GroupedShape | helpers/data_backend/local.py:68-75 | group parents are distinct; every group has an empty middle list and at least one file; every walked path is filed under its parent |
| LocalBackend.ListFiles | helpers/data_backend/local.py:43-76 | a missing root argument raises ValueError; a root that is a link loop raises OSError (ELOOP); any other missing root raises FileNotFoundError; a root that is not a directory raises NotADirectoryError; otherwise the result is the grouping of the walk |
| LocalBackend.ReadImageIgnoresNul | helpers/data_backend/local.py:78-84 | a NUL inserted anywhere in the path does not change which file is opened |
| LocalBackend.ReadImage | helpers/data_backend/local.py:78-87 | a path without NUL characters is opened as given, and the opener's error is passed on unchanged |
| LocalBackend.DirsFor | helpers/data_backend/local.py:89-90 | the directories makedirs needs are exactly the path and its prefixes that end just before a slash: every such prefix is included, and every member is the path or such a prefix |
| LocalBackend.Head | helpers/data_backend/local.py:89-90 | `os.path.split(q)[0]`: a prefix of the path that ends just before a slash, with no slash after it, or empty when there is none past the first character |
| LocalBackend.TopMissing | helpers/data_backend/local.py:89-90 | the climb of makedirs while the parent is missing: the path itself or a prefix of it ending before a slash, missing when the path is, and whose own parent exists or is empty |
| LocalBackend.MakeDirs | helpers/data_backend/local.py:89-90 | an empty path raises FileNotFoundError; an existing directory is left alone; an existing file raises FileExistsError; a file among the ancestors raises NotADirectoryError naming the first directory the climb of makedirs tries to create, a needed directory that is missing; otherwise every needed directory is created; on success every old entry is kept and the only new entries are directories on the path |
| LocalBackend.MakeDirsIdempotent | helpers/data_backend/local.py:89-90 | creating the same directory twice changes nothing the second time |
| LocalBackend.TopMissingBelowEntry | helpers/data_backend/local.py:89-90 | the climb stops below every existing entry on the path |
| LocalBackend.NothingBelowFile | helpers/data_backend/local.py:89-90 | in a store a file system can hold, nothing lies below a regular file |
| LocalBackend.MakeDirsBlockedBelowFile | helpers/data_backend/local.py:89-90 | in a store a file system can hold, a file above the path makes makedirs raise NotADirectoryError for the missing directory whose parent is that file |
| LocalBackend.MakeDirsUnderFileExample | helpers/data_backend/local.py:89-90 | `makedirs("f/a/x")` below the file "f" raises NotADirectoryError for "f/a", on a store that `MakeDirsBlockedBelowFile` applies to |
| LocalBackend.FileStore.Delete | helpers/data_backend/local.py:28-33 | a missing path raises FileNotFoundError and a directory raises IsADirectoryError, leaving the store unchanged; a file is removed and then no longer exists |
| LocalBackend.FileStore.Exists | helpers/data_backend/local.py:35-37 | no contract of its own: `exists(filepath)` is membership in the store, the condition that `Delete` and `CreateDirectory` state their results by |
| LocalBackend.FileStore.CreateDirectory | helpers/data_backend/local.py:89-90 | the store becomes the makedirs result, or stays unchanged with its error; afterwards the directory exists |
| DreamBooth.RoundHalfEven | helpers/dreambooth_dataset.py:110-111 | Python's round of n/d: within half a unit of the quotient, and even on an exact tie |
| DreamBooth.RoundHalfEvenUnique | helpers/dreambooth_dataset.py:110-111 | any integer meeting the rounding condition is the rounding |
| DreamBooth.RoundHalfEvenScale | helpers/dreambooth_dataset.py:107-111 | rounding (n·m)/(d·m) equals rounding n/d |
| DreamBooth.ScaledSide | helpers/dreambooth_dataset.py:107-111 | a side scaled by resolution/short becomes 64 times Python's round of its 64ths: a multiple of 64 within half a step of the exact length, with an exact tie going to an even multiple of 64 |
| DreamBooth.ResizedSides | helpers/dreambooth_dataset.py:104-111 | both new sides are multiples of 64 within 32 of the exactly scaled sides, and a side on an exact tie is an even multiple of 64 |
| DreamBooth.ShortSideBecomesResolution | helpers/dreambooth_dataset.py:106-111 | the short side always becomes round(resolution/64)·64, whatever the image |
| DreamBooth.ResizeTieExample | helpers/dreambooth_dataset.py:104-111 | in exact arithmetic a 400x298 image at resolution 480 gets a short side of 512, the even multiple at the tie |
| DreamBooth.ResizeExample | helpers/dreambooth_dataset.py:104-111 | a 100x50 image at resolution 512 becomes 1024x512 |
| DreamBooth.Measure | helpers/dreambooth_dataset.py:61-63 | original images are measured as they are; otherwise the resized sides are measured, and the resize fails if and only if a resized side is zero |
| DreamBooth.NearestBucket | helpers/dreambooth_dataset.py:65 | the chosen position is inside the bucket list |
| DreamBooth.NearestBucketIsFirstClosest | helpers/dreambooth_dataset.py:65 | the chosen bucket is at least as close as every other, and strictly closer than all earlier ones (min keeps the first minimum) |
| DreamBooth.Classify | helpers/dreambooth_dataset.py:61-65 | a classification succeeds if and only if the image opens, is measured and there is a bucket; an unopenable image, a failed resize and an empty bucket list each give their own error; a success names one of the configured buckets |
| DreamBooth.DefaultsPutSquareInFirstBucket | helpers/dreambooth_dataset.py:17-18 | with the constructor's default buckets and size, a square image of any size is measured at 768x768 and lands in bucket 1.0 |
| DreamBooth.FailureAborts | helpers/dreambooth_dataset.py:60-66 | a failure after only successes is the exception the whole assignment raises |
| DreamBooth.SuccessRecords | helpers/dreambooth_dataset.py:64-66 | a success after only successes keeps the run clean and appends its index to its bucket's list alone |
| DreamBooth.BucketsSoFarStep | helpers/dreambooth_dataset.py:66 | recording image n appends n to the chosen bucket's list and changes no other list |
| DreamBooth.FirstFailureIsFirst | helpers/dreambooth_dataset.py:60-63 | there is no failure if and only if every image was classified; otherwise the failure is that of the earliest failing image |
| DreamBooth.FirstFailureStops | helpers/dreambooth_dataset.py:60-63 | once an image fails, later images do not change the exception raised |
| DreamBooth.AssignToBuckets | helpers/dreambooth_dataset.py:58-67 | the loop raises the first image's failure, or returns each configured bucket mapped to the indices that chose it |
| DreamBooth.IndicesForMembership | helpers/dreambooth_dataset.py:66 | an index is in a bucket's list if and only if it is below the count and its image chose that bucket |
| DreamBooth.IndicesForAscending | helpers/dreambooth_dataset.py:60-66 | each list is strictly ascending and bounded by the number of images |
| DreamBooth.BucketsPartitionIndices | helpers/dreambooth_dataset.py:59-67 | the keys are the configured buckets; each index lies in the list of its bucket and in no other; the lists are ascending and in range |
| DreamBooth.AssignedBucketIsNearest | helpers/dreambooth_dataset.py:61-65 | an image that was classified was opened and measured, and its bucket is the first closest to its measured ratio |
| DreamBooth.Caption | helpers/dreambooth_dataset.py:85-87 | the caption is a prefix of the spaced stem, without underscores, and contains neither "upscaled by" nor "upscaled beta" |
| DreamBooth.CaptionIdempotent | helpers/dreambooth_dataset.py:85-87 | cleaning a caption again changes nothing |
| DreamBooth.CaptionExample | helpers/dreambooth_dataset.py:84-87 | `my_cat_upscaled_by_2x` gives `"my cat "`, trailing space included |
| DreamBooth.SpacedExample | helpers/dreambooth_dataset.py:85 | the example stem with underscores replaced by spaces |
| DreamBooth.CutExample | helpers/dreambooth_dataset.py:86 | the spaced example is cut just before "upscaled by" |
| DreamBooth.CaptionPlainExample | helpers/dreambooth_dataset.py:84-87 | `plain_name` gives `"plain name"` |
| DreamBooth.PromptFor | helpers/dreambooth_dataset.py:79-89 | without captions the prompt is the instance prompt; with captions it is the stem's caption, preceded by the instance prompt and a space when prepending |
| DreamBooth.NewDataset | helpers/dreambooth_dataset.py:12-43 | a missing root raises ValueError with the source's message; a root that is not a directory raises; otherwise the dataset holds the listing, its length and the bucket assignment, or the assignment's first failure |
| DreamBooth.Dataset.Length | helpers/dreambooth_dataset.py:69-70 | no contract of its own: `__len__` is the number of listed entries, which `NewDataset` and `GetItem` state their results by |
| DreamBooth.GetItemAsWritten | helpers/dreambooth_dataset.py:44-94 | an empty dataset raises ZeroDivisionError; without original images it behaves exactly as `GetItem`; any failure before the transform lookup is passed on; with original images every access that would succeed raises AttributeError for `image_transforms` |
| DreamBooth.OriginalImagesAlwaysFailAsWritten | helpers/dreambooth_dataset.py:44-56 | with original images, every access whose image opens raises AttributeError at line 94 |
| DreamBooth.GetItem | helpers/dreambooth_dataset.py:72-94 | an empty dataset raises ZeroDivisionError; otherwise the access succeeds if and only if the image at the wrapped index opens, an unopenable image raising AssetError for that path; a sample holds the wrapped index's path, the image opened there and that path's prompt |
| DreamBooth.GetItemWraps | helpers/dreambooth_dataset.py:75-83 | an in-range index selects its own path; i and i + N give the same sample; a negative index counts from the end; an empty dataset always fails |
| DreamBooth.BuiltDatasetServesEveryIndex | helpers/dreambooth_dataset.py:43-94 | every index of a successfully built, non-empty dataset yields a sample |

## Left out

- Pixel data, the torchvision transform pipeline and the tokenizer are not modelled. A sample holds the image's path, its size and the prompt text. `print_names`, logging and `center_crop` only affect output or pixels.
- `read`, `write`, `open_file`, `torch_load` and `torch_save` are byte or tensor I/O passed straight to the operating system or torch, so they are not modelled.
- `Image.open` and `Image.convert` are the parameters `imageAt` and `open`. Decoding failures are `AssetError`, and the parameter decides which images fail.
- DreamBooth.RoundHalfEven: rounds the exact quotient, while the code rounds the float `side * (float(resolution) / short) / 64.0`. At an exact tie that float can land just beside .5 for images of ordinary size, and the code then picks the other multiple of 64. This always concerns the short side when the resolution is an odd multiple of 32: a 400x298 image at 480 gets a short side of 448 in the code and 512 in the model (`DreamBooth.ResizeTieExample`).
- DreamBooth.ShortSideBecomesResolution: holds in exact arithmetic only; with float rounding the short side can differ by 64 on a tie, as above.
- DreamBooth.ScaledSide: its tie clause (an exact tie goes to an even multiple of 64) holds in exact arithmetic only, for the reason above.
- DreamBooth.ResizedSides: its tie clauses hold in exact arithmetic only, for the reason above.
- DreamBooth.Ratio: the ratio and the bucket distances are exact reals, not floats.
- DreamBooth.Measure: the only Pillow resize failure modelled is a zero side.
- Path strings are not normalised. `str(path.parent)` and `str(path.absolute())` are the parameters `parentOf` and `absolute`. `LocalBackend.ParentsConsistent` states how `parentOf` relates to the tree.
- A link's raw target is taken as the path to walk. A relative `readlink` target is resolved against the working directory in the code, and that resolution is not modelled.
- LocalBackend.Walk: every path's listing is read through full link resolution. So a directory reached through a chain of links lists the final directory's entries under their stored paths, while Python builds them under the link path.
- LocalBackend.Walk: termination needs a `rank` that every descent lowers over the whole tree, not only the part reachable from the root. Any directory/link cycle anywhere in the tree is therefore excluded, including one the walk never reaches, on which the code returns normally. A cycle the walk does reach makes the code recurse until Python stops it with RecursionError.
- LocalBackend.Glob: the pattern is a predicate on one directory's entries, so recursive `**` patterns are not modelled.
- LocalBackend.MakeDirs: on a store no file system can hold (an entry below a file, or a missing parent directory, so `Closed` fails), it checks the whole path at once rather than following the climb of `os.makedirs` step by step, so the outcome can differ there.
- LocalBackend.FileStore: `exists`, `delete` and `create_directory` act on their own map from paths to kinds. It is not linked to the tree that `list_files` walks, and links are not modelled in it.
- DreamBooth.BucketMap: the bucket dictionary is a `map`, so the key order of the dict literal (the configured bucket order) is not kept. The index lists inside it keep their order.
- The `DreamBoothDataset` object is never updated after construction, so it is modelled as an immutable `Dataset` value that `NewDataset` returns.

## Findings

| source | as written | input that shows it | evidently intended | confidence | as-written member | corrected member |
|---|---|---|---|---|---|---|
| helpers/dreambooth_dataset.py:44-56, 94 | `self.image_transforms` is assigned only when `use_original_images` is false, but `__getitem__` always calls it | a dataset built with `use_original_images=True` and one readable image; `dataset[0]` raises AttributeError | samples are produced in both modes, with the transform pipeline available either way | medium, not executed | DreamBooth.OriginalImagesAlwaysFailAsWritten | DreamBooth.BuiltDatasetServesEveryIndex |

=== FILE: dreambooth.dfy ===
/** The DreamBooth instance dataset: images listed once from a root
    directory, each index assigned to the aspect-ratio bucket nearest to its
    (optionally resized) width/height ratio, and every sample's prompt derived
    from its file name. */
module DreamBooth {
  import opened Outcomes
  import opened FileSystem
  import Text

  /** A decoded image is known only by its size; both sides are positive. */
  type Pixels = n: int | n > 0 witness 1

  datatype Image = Image(width: Pixels, height: Pixels)

  function Abs(x: int): nat
  {
    if x < 0 then -x else x
  }

  // ---------------------------------------------------------------------
  // Resize for measurement
  // ---------------------------------------------------------------------

  /** Python's `round` applied to the exact quotient n / d: the nearest
      integer, ties going to the even neighbour. */
  function RoundHalfEven(n: int, d: int): (r: int)
    requires d > 0
    ensures 2 * Abs(r * d - n) <= d
    ensures 2 * Abs(r * d - n) == d ==> r % 2 == 0
  {
    var q, rem := n / d, n % d;
    assert n == q * d + rem;
    assert (q + 1) * d == q * d + d;
    if 2 * rem < d then q
    else if 2 * rem > d then q + 1
    else if q % 2 == 0 then q
    else q + 1
  }

  lemma MulDistributes(a: int, b: int, d: int)
    ensures a * d - b * d == (a - b) * d
  {
  }

  lemma MulAssociates(a: int, b: int, c: int)
    ensures (a * b) * c == b * (a * c)
  {
  }

  lemma MulNonNegative(a: int, d: int)
    requires a >= 0 && d >= 0
    ensures a * d >= 0
  {
  }

  /** Two integers whose multiples by d lie at most d apart are equal or
      adjacent. */
  lemma CloseMultiples(a: int, b: int, d: int)
    requires d > 0
    requires Abs(a * d - b * d) <= d
    ensures -1 <= a - b <= 1
  {
    MulDistributes(a, b, d);
    MulDistributes(a - b, 2, d);
    MulDistributes(b - a, 2, d);
    if a - b >= 2 {
      MulNonNegative(a - b - 2, d);
    } else if b - a >= 2 {
      MulNonNegative(b - a - 2, d);
      MulDistributes(b, a, d);
    }
  }

  /** Rounding is determined: two integers that are both nearest to n / d,
      with ties going to the even one, are the same integer. */
  lemma NearestEvenUnique(n: int, d: int, r: int, s: int)
    requires d > 0
    requires 2 * Abs(r * d - n) <= d && (2 * Abs(r * d - n) == d ==> r % 2 == 0)
    requires 2 * Abs(s * d - n) <= d && (2 * Abs(s * d - n) == d ==> s % 2 == 0)
    ensures r == s
  {
    if r != s {
      MulDistributes(r, s, d);
      CloseMultiples(r, s, d);
    }
  }

  /** The two conditions of `RoundHalfEven`'s contract describe Python's
      rounding completely. */
  lemma RoundHalfEvenUnique(n: int, d: int, r: int)
    requires d > 0
    requires 2 * Abs(r * d - n) <= d
    requires 2 * Abs(r * d - n) == d ==> r % 2 == 0
    ensures r == RoundHalfEven(n, d)
  {
    NearestEvenUnique(n, d, r, RoundHalfEven(n, d));
  }

  /** Scaling numerator and denominator alike keeps an integer nearest to
      the quotient, and keeps a tie a tie. */
  lemma NearestEvenScaled(n: int, d: int, m: int, r: int)
    requires d > 0 && m > 0
    requires 2 * Abs(r * d - n) <= d && (2 * Abs(r * d - n) == d ==> r % 2 == 0)
    ensures 2 * Abs(r * (d * m) - n * m) <= d * m
    ensures 2 * Abs(r * (d * m) - n * m) == d * m ==> r % 2 == 0
  {
    var x := r * d - n;
    var ax := Abs(x);
    var y := 2 * ax;
    assert r * (d * m) - n * m == x * m by {
      MulAssociates(d, r, m);
      MulDistributes(r * d, n, m);
    }
    assert Abs(x * m) == ax * m by {
      if x < 0 { MulDistributes(0, -x, m); }
    }
    assert 2 * (ax * m) == y * m by {
      MulDistributes(y, ax, m);
    }
    var gap := (d - y) * m;
    assert d * m - y * m == gap by {
      MulDistributes(d, y, m);
    }
    assert gap >= 0 by {
      MulNonNegative(d - y, m);
    }
    assert gap == 0 ==> y == d by {
      if d - y > 0 {
        MulNonNegative(d - y - 1, m);
        MulDistributes(d - y, 1, m);
      }
    }
  }

  /** Rounding n / d and rounding (n * m) / (d * m) agree. */
  lemma RoundHalfEvenScale(n: int, d: int, m: int)
    requires d > 0 && m > 0
    ensures RoundHalfEven(n * m, d * m) == RoundHalfEven(n, d)
  {
    var r := RoundHalfEven(n, d);
    NearestEvenScaled(n, d, m, r);
    RoundHalfEvenUnique(n * m, d * m, r);
  }

  /** The sides `_resize_for_condition_image(image, resolution)` resizes to:
      both sides scaled by resolution / min(H, W), then each rounded to a
      multiple of 64. */
  function ResizedSides(img: Image, resolution: nat): (r: (int, int))
    ensures r.0 % 64 == 0 && r.1 % 64 == 0
    ensures var short := if img.height < img.width then img.height else img.width;
      && 2 * Abs(r.0 * short - img.width * resolution) <= 64 * short
      && 2 * Abs(r.1 * short - img.height * resolution) <= 64 * short
    ensures var short := if img.height < img.width then img.height else img.width;
      && (2 * Abs(r.0 * short - img.width * resolution) == 64 * short ==> (r.0 / 64) % 2 == 0)
      && (2 * Abs(r.1 * short - img.height * resolution) == 64 * short ==> (r.1 / 64) % 2 == 0)
  {
    var short := if img.height < img.width then img.height else img.width;
    (ScaledSide(img.width, short, resolution), ScaledSide(img.height, short, resolution))
  }

  /** One side scaled by resolution / short and rounded to a multiple of 64:
      the multiple of 64 nearest to the exact scaled length. */
  function ScaledSide(side: Pixels, short: Pixels, resolution: nat): (s: int)
    ensures s % 64 == 0
    ensures 2 * Abs(s * short - side * resolution) <= 64 * short
    ensures 2 * Abs(s * short - side * resolution) == 64 * short ==> (s / 64) % 2 == 0
  {
    var k := RoundHalfEven(side * resolution, 64 * short);
    MulAssociates(64, k, short);
    64 * k
  }

  /** The short side always becomes `round(resolution / 64) * 64`, whatever
      the image's own size. */
  lemma ShortSideBecomesResolution(img: Image, resolution: nat)
    ensures img.height <= img.width ==> ResizedSides(img, resolution).1 == 64 * RoundHalfEven(resolution, 64)
    ensures img.width <= img.height ==> ResizedSides(img, resolution).0 == 64 * RoundHalfEven(resolution, 64)
  {
    var short := if img.height < img.width then img.height else img.width;
    RoundHalfEvenScale(resolution, 64, short);
    assert short * resolution == resolution * short && 64 * short == 64 * short;
  }

  /** At a resolution that is an odd multiple of 32 the short side sits on an
      exact tie and goes to the even multiple: a 400x298 image at 480 gets a
      short side of 512. */
  lemma ResizeTieExample()
    ensures ResizedSides(Image(400, 298), 480).1 == 512
  {
    ShortSideBecomesResolution(Image(400, 298), 480);
    assert RoundHalfEven(480, 64) == 8;
  }

  /** A 100x50 image resized for measurement at 512 becomes 1024x512. */
  lemma ResizeExample()
    ensures ResizedSides(Image(100, 50), 512) == (1024, 512)
  {
  }

  /** The image whose ratio is measured: the original, or the resized one
      when original images are not used. Pillow refuses a zero side. */
  function Measure(img: Image, useOriginal: bool, resolution: nat, path: Path): (r: Result<Image>)
    ensures useOriginal ==> r == Ok(img)
    ensures !useOriginal && r.Ok? ==> (r.value.width, r.value.height) == ResizedSides(img, resolution)
    ensures !useOriginal && r.Err? ==> r.error == ResizeError(path)
    ensures !useOriginal ==> (r.Ok? <==> ResizedSides(img, resolution).0 > 0 && ResizedSides(img, resolution).1 > 0)
  {
    if useOriginal then Ok(img)
    else
      var (w, h) := ResizedSides(img, resolution);
      if w > 0 && h > 0 then Ok(Image(w, h)) else Err(ResizeError(path))
  }

  // ---------------------------------------------------------------------
  // Nearest bucket
  // ---------------------------------------------------------------------

  function Ratio(img: Image): real
  {
    img.width as real / img.height as real
  }

  function Dist(b: real, ratio: real): real
  {
    if b < ratio then ratio - b else b - ratio
  }

  /** `min(buckets, key=lambda x: abs(x - ratio))` as a position: the scan
      keeps the current best and replaces it only by a strictly closer bucket. */
  function NearestBucket(buckets: seq<real>, ratio: real): (k: nat)
    requires buckets != []
    ensures k < |buckets|
  {
    if |buckets| == 1 then 0
    else
      var k := NearestBucket(buckets[..|buckets| - 1], ratio);
      if Dist(buckets[|buckets| - 1], ratio) < Dist(buckets[k], ratio) then |buckets| - 1 else k
  }

  /** The chosen bucket is at least as close to the ratio as every other, and
      it is the first in list order that is: ties go to the earliest bucket. */
  lemma {:induction false} NearestBucketIsFirstClosest(buckets: seq<real>, ratio: real)
    requires buckets != []
    ensures forall j :: 0 <= j < |buckets| ==>
      Dist(buckets[NearestBucket(buckets, ratio)], ratio) <= Dist(buckets[j], ratio)
    ensures forall j :: 0 <= j < NearestBucket(buckets, ratio) ==>
      Dist(buckets[j], ratio) > Dist(buckets[NearestBucket(buckets, ratio)], ratio)
  {
    if |buckets| > 1 {
      var init := buckets[..|buckets| - 1];
      var last := |buckets| - 1;
      NearestBucketIsFirstClosest(init, ratio);
      var k0 := NearestBucket(init, ratio);
      var k := NearestBucket(buckets, ratio);
      assert init[k0] == buckets[k0];
      assert forall j :: 0 <= j < last ==> init[j] == buckets[j];
      if Dist(buckets[last], ratio) < Dist(buckets[k0], ratio) {
        assert k == last;
      } else {
        assert k == k0;
      }
    }
  }

  // ---------------------------------------------------------------------
  // Dataset options and bucket assignment
  // ---------------------------------------------------------------------

  datatype Options = Options(
    instancePrompt: string,
    buckets: seq<real>,
    size: nat,
    useCaptions: bool,
    prependInstancePrompt: bool,
    useOriginalImages: bool)

  /** The constructor's default bucket list and size. */
  const DefaultBuckets: seq<real> := [1.0, 1.5, 0.67, 0.75, 1.78]
  const DefaultSize: nat := 768

  /** The options of a dataset built with every keyword argument left at its
      default. */
  function DefaultOptions(instancePrompt: string): Options
  {
    Options(instancePrompt, DefaultBuckets, DefaultSize, true, false, false)
  }

  /** One turn of `assign_to_buckets`' loop: open the image at `path`,
      resize it for measurement unless original images are used, and choose
      the nearest bucket to its width/height ratio; or the exception raised
      on the way. */
  function Classify(opts: Options, imageAt: Path -> Option<Image>, path: Path): (r: Result<real>)
    ensures r.Ok? ==> r.value in opts.buckets
    ensures r.Ok? <==> && imageAt(path).Some?
                       && Measure(imageAt(path).value, opts.useOriginalImages, opts.size, path).Ok?
                       && opts.buckets != []
    ensures imageAt(path).None? ==> r == Err(AssetError(path))
    ensures imageAt(path).Some? && Measure(imageAt(path).value, opts.useOriginalImages, opts.size, path).Err? ==>
      r == Err(Measure(imageAt(path).value, opts.useOriginalImages, opts.size, path).error)
    ensures imageAt(path).Some? && Measure(imageAt(path).value, opts.useOriginalImages, opts.size, path).Ok? && opts.buckets == [] ==>
      r == Err(EmptyBuckets)
  {
    match imageAt(path)
    case None => Err(AssetError(path))
    case Some(img) =>
      match Measure(img, opts.useOriginalImages, opts.size, path)
      case Err(e) => Err(e)
      case Ok(m) =>
        if opts.buckets == [] then Err(EmptyBuckets)
        else Ok(opts.buckets[NearestBucket(opts.buckets, Ratio(m))])
  }

  /** With the default options a square image of any size is measured at
      768x768 and lands in the first bucket, 1.0. */
  lemma DefaultsPutSquareInFirstBucket(prompt: string, imageAt: Path -> Option<Image>, path: Path, side: Pixels)
    requires imageAt(path) == Some(Image(side, side))
    ensures Classify(DefaultOptions(prompt), imageAt, path) == Ok(1.0)
  {
    ShortSideBecomesResolution(Image(side, side), DefaultSize);
    assert RoundHalfEven(768, 64) == 12;
    assert ResizedSides(Image(side, side), DefaultSize) == (768, 768);
    assert Ratio(Image(768, 768)) == 1.0;
    NearestBucketIsFirstClosest(DefaultBuckets, 1.0);
    var k := NearestBucket(DefaultBuckets, 1.0);
    assert Dist(DefaultBuckets[0], 1.0) == 0.0;
    assert Dist(DefaultBuckets[k], 1.0) >= 0.0;
    assert k == 0;
  }

  /** The outcome of one loop turn for every listed path, in listing order. */
  function Classified(opts: Options, imageAt: Path -> Option<Image>, paths: seq<Path>): seq<Result<real>>
  {
    seq(|paths|, i requires 0 <= i < |paths| => Classify(opts, imageAt, paths[i]))
  }

  /** The indices among the first n outcomes that chose bucket b, in the
      order the loop appends them. */
  function IndicesFor(cs: seq<Result<real>>, b: real, n: nat): seq<nat>
    requires n <= |cs|
  {
    if n == 0 then []
    else IndicesFor(cs, b, n - 1) + (if cs[n - 1] == Ok(b) then [n - 1] else [])
  }

  /** The specification of `assign_to_buckets`' result: every configured
      bucket maps to the indices that chose it. */
  function BucketMap(buckets: seq<real>, cs: seq<Result<real>>): map<real, seq<nat>>
  {
    BucketsSoFar(buckets, cs, |cs|)
  }

  /** The bucket map after the first n outcomes. */
  function BucketsSoFar(buckets: seq<real>, cs: seq<Result<real>>, n: nat): map<real, seq<nat>>
    requires n <= |cs|
  {
    map b | b in buckets :: IndicesFor(cs, b, n)
  }

  /** A failing outcome after n successful ones is the assignment's exception. */
  lemma FailureAborts(cs: seq<Result<real>>, n: nat)
    requires n < |cs| && FirstFailure(cs, n).None? && cs[n].Err?
    ensures FirstFailure(cs, |cs|) == Some(cs[n].error)
  {
    FirstFailureStops(cs, n + 1);
  }

  /** A successful outcome after n successful ones keeps the run clean and is
      recorded under its bucket. */
  lemma SuccessRecords(buckets: seq<real>, cs: seq<Result<real>>, n: nat)
    requires n < |cs| && FirstFailure(cs, n).None? && cs[n].Ok? && cs[n].value in buckets
    ensures FirstFailure(cs, n + 1).None?
    ensures BucketsSoFar(buckets, cs, n + 1)
      == BucketsSoFar(buckets, cs, n)[cs[n].value := BucketsSoFar(buckets, cs, n)[cs[n].value] + [n]]
  {
    BucketsSoFarStep(buckets, cs, n);
  }

  /** Recording outcome n appends n to the chosen bucket's list and leaves
      every other bucket's list as it was. */
  lemma BucketsSoFarStep(buckets: seq<real>, cs: seq<Result<real>>, n: nat)
    requires n < |cs| && cs[n].Ok? && cs[n].value in buckets
    ensures BucketsSoFar(buckets, cs, n + 1)
      == BucketsSoFar(buckets, cs, n)[cs[n].value := BucketsSoFar(buckets, cs, n)[cs[n].value] + [n]]
  {
    var before := BucketsSoFar(buckets, cs, n);
    var after := BucketsSoFar(buckets, cs, n + 1);
    var b := cs[n].value;
    forall c | c in after
      ensures after[c] == before[b := before[b] + [n]][c]
    {
      assert IndicesFor(cs, c, n + 1) == IndicesFor(cs, c, n) + (if cs[n] == Ok(c) then [n] else []);
    }
  }

  /** The exception of the first failing outcome among the first n, if any. */
  function FirstFailure(cs: seq<Result<real>>, n: nat): Option<Error>
    requires n <= |cs|
  {
    if n == 0 then None
    else match FirstFailure(cs, n - 1)
      case Some(e) => Some(e)
      case None => if cs[n - 1].Err? then Some(cs[n - 1].error) else None
  }

  /** `FirstFailure` finds the earliest failing outcome, and finds none
      exactly when every outcome succeeded. */
  lemma {:induction false} FirstFailureIsFirst(cs: seq<Result<real>>, n: nat)
    requires n <= |cs|
    ensures FirstFailure(cs, n).None? <==> forall j :: 0 <= j < n ==> cs[j].Ok?
    ensures FirstFailure(cs, n).Some? ==>
      exists i :: 0 <= i < n && cs[i] == Err(FirstFailure(cs, n).value) && forall j :: 0 <= j < i ==> cs[j].Ok?
  {
    if n > 0 {
      FirstFailureIsFirst(cs, n - 1);
    }
  }

  /** Once a failure is found, reading further outcomes keeps it. */
  lemma {:induction false} FirstFailureStops(cs: seq<Result<real>>, n: nat)
    requires n <= |cs|
    requires FirstFailure(cs, n).Some?
    ensures FirstFailure(cs, |cs|) == FirstFailure(cs, n)
    decreases |cs| - n
  {
    if n < |cs| {
      FirstFailureStops(cs, n + 1);
    }
  }

  /** `assign_to_buckets`: open each listed image in order, measure it, and
      append its index to the nearest bucket's list. The first image that
      fails aborts the whole assignment. */
  method AssignToBuckets(opts: Options, imageAt: Path -> Option<Image>, paths: seq<Path>) returns (r: Result<map<real, seq<nat>>>)
    ensures FirstFailure(Classified(opts, imageAt, paths), |paths|).Some? ==>
      r == Err(FirstFailure(Classified(opts, imageAt, paths), |paths|).value)
    ensures FirstFailure(Classified(opts, imageAt, paths), |paths|).None? ==>
      r == Ok(BucketMap(opts.buckets, Classified(opts, imageAt, paths)))
  {
    ghost var cs := Classified(opts, imageAt, paths);
    assert |cs| == |paths|;
    var indices: map<real, seq<nat>> := map b | b in opts.buckets :: [];
    assert indices == BucketsSoFar(opts.buckets, cs, 0);
    for i := 0 to |paths|
      invariant FirstFailure(cs, i).None?
      invariant indices == BucketsSoFar(opts.buckets, cs, i)
    {
      var bucket := Classify(opts, imageAt, paths[i]);
      assert cs[i] == bucket;
      if bucket.Err? {
        FailureAborts(cs, i);
        return Err(bucket.error);
      }
      SuccessRecords(opts.buckets, cs, i);
      indices := indices[bucket.value := indices[bucket.value] + [i]];
    }
    return Ok(indices);
  }

  /** Membership in a bucket's list: exactly the indices that chose it. */
  lemma {:induction false} IndicesForMembership(cs: seq<Result<real>>, b: real, n: nat, i: int)
    requires n <= |cs|
    ensures i in IndicesFor(cs, b, n) <==> 0 <= i < n && cs[i] == Ok(b)
  {
    if n > 0 {
      IndicesForMembership(cs, b, n - 1, i);
    }
  }

  /** Indices are appended in enumeration order, so each list is strictly
      ascending (hence free of repetitions) and below n. */
  lemma {:induction false} IndicesForAscending(cs: seq<Result<real>>, b: real, n: nat)
    requires n <= |cs|
    ensures forall x :: x in IndicesFor(cs, b, n) ==> x < n
    ensures forall a, c :: 0 <= a < c < |IndicesFor(cs, b, n)| ==> IndicesFor(cs, b, n)[a] < IndicesFor(cs, b, n)[c]
  {
    if n > 0 {
      IndicesForAscending(cs, b, n - 1);
      var prev := IndicesFor(cs, b, n - 1);
      var ext: seq<nat> := if cs[n - 1] == Ok(b) then [n - 1] else [];
      var s := prev + ext;
      assert IndicesFor(cs, b, n) == s;
      assert forall y :: y in prev ==> y < n - 1;
      assert forall y :: y in ext ==> y == n - 1;
      forall x | x in s ensures x < n {
        assert x in prev || x in ext;
      }
      forall a, c | 0 <= a < c < |s| ensures s[a] < s[c] {
        if c < |prev| {
          assert s[a] == prev[a] && s[c] == prev[c];
        } else {
          assert s[c] in ext;
          assert s[a] == prev[a] && prev[a] in prev;
        }
      }
    }
  }

  /** The bucket lists partition the image indices: every configured bucket
      is a key (possibly with an empty list), every index 0 <= i < N lies in
      the list of the bucket it chose and in no other, and each list is
      strictly ascending. */
  lemma BucketsPartitionIndices(buckets: seq<real>, cs: seq<Result<real>>)
    requires forall i :: 0 <= i < |cs| ==> cs[i].Ok? && cs[i].value in buckets
    ensures var m := BucketMap(buckets, cs);
      && m.Keys == set b | b in buckets
      && (forall i :: 0 <= i < |cs| ==>
            && i in m[cs[i].value]
            && forall b :: b in m && b != cs[i].value ==> i !in m[b])
      && (forall b :: b in m ==> forall x :: x in m[b] ==> 0 <= x < |cs|)
      && (forall b :: b in m ==> forall a, c :: 0 <= a < c < |m[b]| ==> m[b][a] < m[b][c])
  {
    var m := BucketMap(buckets, cs);
    forall i | 0 <= i < |cs|
      ensures i in m[cs[i].value]
      ensures forall b :: b in m && b != cs[i].value ==> i !in m[b]
    {
      IndicesForMembership(cs, cs[i].value, |cs|, i);
      forall b | b in m && b != cs[i].value ensures i !in m[b] {
        IndicesForMembership(cs, b, |cs|, i);
      }
    }
    forall b | b in m
      ensures forall x :: x in m[b] ==> 0 <= x < |cs|
      ensures forall a, c :: 0 <= a < c < |m[b]| ==> m[b][a] < m[b][c]
    {
      assert m[b] == IndicesFor(cs, b, |cs|);
      IndicesForAscending(cs, b, |cs|);
    }
  }

  /** The bucket an image lands in is the first bucket, in list order, among
      those closest to the ratio of its measured (resized unless original
      images are used) size. */
  lemma AssignedBucketIsNearest(opts: Options, imageAt: Path -> Option<Image>, path: Path)
    ensures Classify(opts, imageAt, path).Ok? ==>
      && imageAt(path).Some?
      && Measure(imageAt(path).value, opts.useOriginalImages, opts.size, path).Ok?
    ensures Classify(opts, imageAt, path).Ok? ==>
      var ratio := Ratio(Measure(imageAt(path).value, opts.useOriginalImages, opts.size, path).value);
      var b := Classify(opts, imageAt, path).value;
      && (forall c :: c in opts.buckets ==> Dist(b, ratio) <= Dist(c, ratio))
      && exists k :: 0 <= k < |opts.buckets| && opts.buckets[k] == b
           && forall j :: 0 <= j < k ==> Dist(opts.buckets[j], ratio) > Dist(b, ratio)
  {
    if Classify(opts, imageAt, path).Ok? {
      var measured := Measure(imageAt(path).value, opts.useOriginalImages, opts.size, path);
      NearestBucketIsFirstClosest(opts.buckets, Ratio(measured.value));
    }
  }

  // ---------------------------------------------------------------------
  // Prompts
  // ---------------------------------------------------------------------

  const UpscaledBy: string := "upscaled by"
  const UpscaledBeta: string := "upscaled beta"

  /** The caption derived from a file stem: underscores become spaces, then
      the text is cut before the first "upscaled by" and then before the
      first "upscaled beta". */
  function Caption(stem: string): (r: string)
    ensures r <= Text.ReplaceChar(stem, '_', ' ')
    ensures '_' !in r
    ensures !Text.Contains(r, UpscaledBy) && !Text.Contains(r, UpscaledBeta)
  {
    var spaced := Text.ReplaceChar(stem, '_', ' ');
    var cut := Text.CutAt(spaced, UpscaledBy);
    Text.CutAtRemovesMarker(spaced, UpscaledBy);
    Text.CutAtRemovesMarker(cut, UpscaledBeta);
    Text.CutAtKeepsAbsence(cut, UpscaledBeta, UpscaledBy);
    Text.CutAt(cut, UpscaledBeta)
  }

  /** Cleaning a caption again changes nothing. */
  lemma CaptionIdempotent(stem: string)
    ensures Caption(Caption(stem)) == Caption(stem)
  {
    var r := Caption(stem);
    assert Text.ReplaceChar(r, '_', ' ') == r;
    Text.CutAtRemovesMarker(r, UpscaledBy);
    Text.CutAtRemovesMarker(r, UpscaledBeta);
  }

  /** The upscaler's suffix is cut off and the space before it is kept. */
  lemma CaptionExample(stem: string)
    requires stem == "my_cat_upscaled_by_2x"
    ensures Caption(stem) == "my cat "
  {
    var spaced := Text.ReplaceChar(stem, '_', ' ');
    SpacedExample(stem);
    CutExample(spaced);
    Text.CutAtShort("my cat ", UpscaledBeta);
  }

  /** Underscores of the example stem become spaces. */
  lemma SpacedExample(stem: string)
    requires stem == "my_cat_upscaled_by_2x"
    ensures Text.ReplaceChar(stem, '_', ' ') == "my cat upscaled by 2x"
  {
    var spaced := Text.ReplaceChar(stem, '_', ' ');
    var expected := "my cat upscaled by 2x";
    assert |spaced| == |expected| == 21;
    forall i | 0 <= i < 21
      ensures spaced[i] == expected[i]
    {
    }
  }

  /** The spaced example stem is cut just before its upscaler suffix. */
  lemma CutExample(spaced: string)
    requires spaced == "my cat upscaled by 2x"
    ensures Text.CutAt(spaced, UpscaledBy) == "my cat "
  {
    assert Text.OccursAt(spaced, UpscaledBy, 7) by {
      assert spaced[7..18] == UpscaledBy;
    }
    forall j | 0 <= j < 7
      ensures !Text.OccursAt(spaced, UpscaledBy, j)
    {
      assert spaced[j] != 'u';
      assert j + |UpscaledBy| <= |spaced| ==> spaced[j..j + |UpscaledBy|][0] == spaced[j];
    }
    Text.CutAtFirstOccurrence(spaced, UpscaledBy, 7);
    assert spaced[..7] == "my cat ";
  }

  /** A stem without an upscaler suffix only has its underscores replaced. */
  lemma CaptionPlainExample(stem: string)
    requires stem == "plain_name"
    ensures Caption(stem) == "plain name"
  {
    var plain := Text.ReplaceChar(stem, '_', ' ');
    assert |plain| == 10;
    assert plain == "plain name";
    Text.CutAtShort(plain, UpscaledBy);
    Text.CutAtShort(plain, UpscaledBeta);
    assert Caption(stem) == Text.CutAt(Text.CutAt(plain, UpscaledBy), UpscaledBeta);
  }

  /** The prompt for the image at `path`: the instance prompt verbatim when
      captions are off; otherwise the caption of the file's stem, after the
      instance prompt and a space when prepending is on. */
  function PromptFor(opts: Options, path: Path): (r: string)
    ensures !opts.useCaptions ==> r == opts.instancePrompt
    ensures opts.useCaptions && opts.prependInstancePrompt ==> opts.instancePrompt + " " <= r
    ensures opts.useCaptions ==>
      var caption := r[if opts.prependInstancePrompt then |opts.instancePrompt| + 1 else 0..];
      && caption <= Text.ReplaceChar(Text.Stem(Text.BaseName(path)), '_', ' ')
      && '_' !in caption
      && !Text.Contains(caption, UpscaledBy) && !Text.Contains(caption, UpscaledBeta)
  {
    if !opts.useCaptions then opts.instancePrompt
    else
      var caption := Caption(Text.Stem(Text.BaseName(path)));
      if opts.prependInstancePrompt then
        assert (opts.instancePrompt + " " + caption)[|opts.instancePrompt| + 1..] == caption;
        opts.instancePrompt + " " + caption
      else caption
  }

  // ---------------------------------------------------------------------
  // The dataset
  // ---------------------------------------------------------------------

  /** What one access yields: the image's path and size (pixels, tensors and
      token ids are not modelled) and the prompt text. */
  datatype Sample = Sample(path: Path, image: Image, prompt: string)

  /** The state the constructor leaves behind; nothing changes it afterwards. */
  datatype Dataset = Dataset(options: Options, root: Path, paths: seq<Path>, bucketIndices: map<real, seq<nat>>)
  {
    /** `__len__`. */
    function Length(): nat
    {
      |paths|
    }
  }

  /** `DreamBoothDataset(...)`: the root must exist; its entries are listed
      once, and every entry is opened and assigned a bucket. */
  method NewDataset(fs: Tree, root: Path, options: Options, imageAt: Path -> Option<Image>) returns (r: Result<Dataset>)
    ensures !Exists(fs, root) ==> r == Err(ConfigError("Instance " + root + " images root doesn't exists."))
    ensures Exists(fs, root) && !IsDir(fs, root) ==> r == Err(NotADirectory(root))
    ensures IsDir(fs, root) ==>
      var cs := Classified(options, imageAt, Listing(fs, root));
      match FirstFailure(cs, |cs|)
      case Some(e) => r == Err(e)
      case None => r == Ok(Dataset(options, root, Listing(fs, root), BucketMap(options.buckets, cs)))
    ensures r.Ok? ==> r.value.Length() == |Listing(fs, root)| && r.value.paths == Listing(fs, root)
  {
    if !Exists(fs, root) {
      return Err(ConfigError("Instance " + root + " images root doesn't exists."));
    }
    if !IsDir(fs, root) {
      return Err(NotADirectory(root));
    }
    var listed := Listing(fs, root);
    var buckets := AssignToBuckets(options, imageAt, listed);
    if buckets.Err? {
      return Err(buckets.error);
    }
    return Ok(Dataset(options, root, listed, buckets.value));
  }

  /** `__getitem__(index)` as written: the index wraps modulo the number of
      images (Python's `%`, which for a positive modulus agrees with Dafny's),
      the image is opened and the prompt derived; the transform pipeline is
      then looked up, and it exists only when original images are not used. */
  function GetItemAsWritten(ds: Dataset, imageAt: Path -> Option<Image>, index: int): (r: Result<Sample>)
    ensures ds.Length() == 0 ==> r == Err(ZeroDivision)
    ensures !ds.options.useOriginalImages ==> r == GetItem(ds, imageAt, index)
    ensures GetItem(ds, imageAt, index).Err? ==> r == GetItem(ds, imageAt, index)
    ensures ds.options.useOriginalImages && GetItem(ds, imageAt, index).Ok? ==> r == Err(MissingAttribute("image_transforms"))
  {
    match GetItem(ds, imageAt, index)
    case Err(e) => Err(e)
    case Ok(sample) => if ds.options.useOriginalImages then Err(MissingAttribute("image_transforms")) else Ok(sample)
  }

  /** As written, every successful access to a dataset built with original
      images raises AttributeError. */
  lemma OriginalImagesAlwaysFailAsWritten(ds: Dataset, imageAt: Path -> Option<Image>, index: int)
    requires ds.options.useOriginalImages && ds.Length() > 0
    requires imageAt(ds.paths[index % ds.Length()]).Some?
    ensures GetItemAsWritten(ds, imageAt, index) == Err(MissingAttribute("image_transforms"))
  {
  }

  /** `__getitem__(index)` as evidently intended: the sample is produced in
      both modes. */
  function GetItem(ds: Dataset, imageAt: Path -> Option<Image>, index: int): (r: Result<Sample>)
    ensures ds.Length() == 0 ==> r == Err(ZeroDivision)
    ensures r.Ok? ==> r.value.path in ds.paths && r.value.prompt == PromptFor(ds.options, r.value.path)
    ensures ds.Length() > 0 ==> (r.Ok? <==> imageAt(ds.paths[index % ds.Length()]).Some?)
    ensures ds.Length() > 0 && imageAt(ds.paths[index % ds.Length()]).None? ==>
      r == Err(AssetError(ds.paths[index % ds.Length()]))
    ensures r.Ok? ==> ds.Length() > 0 && r.value.path == ds.paths[index % ds.Length()]
    ensures r.Ok? ==> imageAt(r.value.path) == Some(r.value.image)
  {
    if ds.Length() == 0 then Err(ZeroDivision)
    else
      var path := ds.paths[index % ds.Length()];
      match imageAt(path)
      case None => Err(AssetError(path))
      case Some(img) => Ok(Sample(path, img, PromptFor(ds.options, path)))
  }

  /** Euclidean division is unique: a quotient and a remainder in [0, n)
      that rebuild x are the ones `/` and `%` give. */
  lemma ModUnique(x: int, n: int, q: int, r: int)
    requires n > 0 && 0 <= r < n && x == q * n + r
    ensures x % n == r
  {
    var q2, r2 := x / n, x % n;
    MulDistributes(q2, q, n);
    var k := q2 - q;
    if k >= 1 {
      MulNonNegative(k - 1, n);
      MulDistributes(k, 1, n);
    } else if k <= -1 {
      MulNonNegative(-k - 1, n);
      MulDistributes(-k, 1, n);
    }
  }

  /** Index wraparound: an index inside the dataset selects its own path,
      i and i + N give the same sample, a negative index counts from the end,
      and an empty dataset fails on every access. */
  lemma GetItemWraps(ds: Dataset, imageAt: Path -> Option<Image>, index: int)
    ensures 0 <= index < ds.Length() && GetItem(ds, imageAt, index).Ok? ==>
      GetItem(ds, imageAt, index).value.path == ds.paths[index]
    ensures GetItem(ds, imageAt, index + ds.Length()) == GetItem(ds, imageAt, index)
    ensures ds.Length() > 0 && -(ds.Length() as int) <= index < 0 ==>
      GetItem(ds, imageAt, index) == GetItem(ds, imageAt, index + ds.Length())
    ensures ds.Length() == 0 ==> GetItem(ds, imageAt, index).Err?
  {
    var n := ds.Length();
    if n > 0 {
      MulDistributes(index / n + 1, 1, n);
      ModUnique(index + n, n, index / n + 1, index % n);
      if 0 <= index < n {
        ModUnique(index, n, 0, index);
      }
    }
  }

  /** Every index of a successfully built dataset yields a sample: the
      images were all opened once already while assigning buckets. */
  lemma BuiltDatasetServesEveryIndex(fs: Tree, root: Path, options: Options, imageAt: Path -> Option<Image>, index: int)
    ensures (&& IsDir(fs, root) && |Listing(fs, root)| > 0
             && FirstFailure(Classified(options, imageAt, Listing(fs, root)), |Listing(fs, root)|).None?) ==>
      var listed := Listing(fs, root);
      GetItem(Dataset(options, root, listed, BucketMap(options.buckets, Classified(options, imageAt, listed))), imageAt, index).Ok?
  {
    var listed := Listing(fs, root);
    var cs := Classified(options, imageAt, listed);
    if |listed| > 0 && FirstFailure(cs, |cs|).None? {
      FirstFailureIsFirst(cs, |cs|);
      assert cs[index % |listed|].Ok?;
    }
  }
}

=== FILE: filesystem.dfy ===
/** An abstract directory tree: every path the operating system knows maps to
    a regular file, a directory listing its entries (as full paths, in the
    order the operating system lists them), or a symbolic link holding its
    raw target. */
module FileSystem {
  import opened Outcomes

  type Path = string

  datatype Node = File | Dir(entries: seq<Path>) | Symlink(target: Path)

  type Tree = map<Path, Node>

  /** Linux follows at most this many links while resolving one path, then
      fails with ELOOP (which `Path.exists` and `Path.is_dir` read as false). */
  const MaxSymlinkHops: nat := 40

  /** The node a path finally names once symbolic links are followed, or
      None when the path is missing, the link dangles or the chain is too long. */
  function Resolve(fs: Tree, p: Path, hops: nat): (r: Option<Node>)
    ensures r.Some? ==> !r.value.Symlink?
    ensures p in fs && !fs[p].Symlink? ==> r == Some(fs[p])
    ensures p !in fs ==> r == None
    decreases hops
  {
    if p !in fs then None
    else match fs[p]
      case Symlink(t) => if hops == 0 then None else Resolve(fs, t, hops - 1)
      case n => Some(n)
  }

  /** `os.path.exists` / `Path.exists`: true when the path resolves. */
  predicate Exists(fs: Tree, p: Path)
  {
    Resolve(fs, p, MaxSymlinkHops).Some?
  }

  /** `Path.is_dir`: the path resolves to a directory. */
  predicate IsDir(fs: Tree, p: Path)
  {
    var n := Resolve(fs, p, MaxSymlinkHops);
    n.Some? && n.value.Dir?
  }

  /** `Path.iterdir` on a path that `IsDir`; empty otherwise. */
  function Listing(fs: Tree, p: Path): (r: seq<Path>)
    ensures p in fs && fs[p].Dir? ==> r == fs[p].entries
    ensures !IsDir(fs, p) ==> r == []
  {
    var n := Resolve(fs, p, MaxSymlinkHops);
    if n.Some? && n.value.Dir? then n.value.entries else []
  }

  /** A link whose target is a directory behaves as that directory: it
      exists, is a directory and lists the target's entries. */
  lemma LinkToDirectory(fs: Tree, l: Path)
    requires l in fs && fs[l].Symlink?
    requires fs[l].target in fs && fs[fs[l].target].Dir?
    ensures Exists(fs, l) && IsDir(fs, l)
    ensures Listing(fs, l) == fs[fs[l].target].entries
  {
  }

  /** A link whose target is missing does not exist, is no directory and
      lists nothing. */
  lemma DanglingLink(fs: Tree, l: Path)
    requires l in fs && fs[l].Symlink? && fs[l].target !in fs
    ensures !Exists(fs, l) && !IsDir(fs, l)
    ensures Listing(fs, l) == []
  {
  }

  /** The chain of links starting at `p` ends, within `hops` further links,
      at a path that is not there. */
  predicate Dangles(fs: Tree, p: Path, hops: nat)
    decreases hops
  {
    p !in fs || (fs[p].Symlink? && hops > 0 && Dangles(fs, fs[p].target, hops - 1))
  }

  /** The chain of links starting at `p` is still a link after `hops` links
      have been followed: the operating system gives up with ELOOP. */
  predicate LinkLoop(fs: Tree, p: Path, hops: nat)
    decreases hops
  {
    p in fs && fs[p].Symlink? && (hops == 0 || LinkLoop(fs, fs[p].target, hops - 1))
  }

  /** A path fails to resolve exactly when its chain dangles or runs past the
      hop limit, and never for both reasons. */
  lemma {:induction false} ResolveFailure(fs: Tree, p: Path, hops: nat)
    ensures Resolve(fs, p, hops).None? <==> Dangles(fs, p, hops) || LinkLoop(fs, p, hops)
    ensures !(Dangles(fs, p, hops) && LinkLoop(fs, p, hops))
    decreases hops
  {
    if p in fs && fs[p].Symlink? && hops > 0 {
      ResolveFailure(fs, fs[p].target, hops - 1);
    }
  }

  /** A link to itself loops however many hops are allowed. */
  lemma {:induction false} SelfLinkLoops(fs: Tree, l: Path, hops: nat)
    requires l in fs && fs[l] == Symlink(l)
    ensures LinkLoop(fs, l, hops)
    decreases hops
  {
    if hops > 0 {
      SelfLinkLoops(fs, l, hops - 1);
    }
  }

  /** A link to itself therefore does not exist, and fails as a loop rather
      than as a missing path. */
  lemma SelfLinkIsLoopNotMissing(fs: Tree, l: Path)
    requires l in fs && fs[l] == Symlink(l)
    ensures !Exists(fs, l) && LinkLoop(fs, l, MaxSymlinkHops)
  {
    SelfLinkLoops(fs, l, MaxSymlinkHops);
    ResolveFailure(fs, l, MaxSymlinkHops);
  }
}

=== FILE: local_backend.dfy ===
/** The local-disk storage backend: recursive listing that follows symbolic
    links and groups the files found by parent directory, the path sanitising
    done before an image is opened, and the exists / delete / create-directory
    operations over a store of paths. */
module LocalBackend {
  import opened Outcomes
  import opened FileSystem
  import Text

  // ---------------------------------------------------------------------
  // The depth-first walk behind `list_files`
  // ---------------------------------------------------------------------

  /** Where the walk goes from a listed entry: a real directory is entered at
      its own path, a symbolic link whose target is a directory is entered at
      the TARGET path; a file, a dangling link and a link to anything other
      than a directory are not entered. */
  function Descent(fs: Tree, e: Path): (r: Option<Path>)
    ensures r.Some? ==> IsDir(fs, r.value)
    ensures e !in fs || fs[e].File? ==> r == None
    ensures e in fs && fs[e].Dir? ==> r == Some(e)
    ensures e in fs && fs[e].Symlink? ==> (r.Some? <==> IsDir(fs, fs[e].target))
    ensures e in fs && fs[e].Symlink? && r.Some? ==> r.value == fs[e].target
  {
    if e !in fs then None
    else match fs[e]
      case Dir(_) => Some(e)
      case Symlink(t) => if IsDir(fs, t) then Some(t) else None
      case File => None
  }

  /** The walk has no cycle guard; it terminates because every step from a
      directory into one of its descents lowers `rank`. Such a rank exists
      exactly when the directory/link graph has no cycle. */
  ghost predicate Ranked(fs: Tree, rank: Path -> nat)
  {
    forall p, i :: 0 <= i < |Listing(fs, p)| && Descent(fs, Listing(fs, p)[i]).Some? ==>
      rank(Descent(fs, Listing(fs, p)[i]).value) < rank(p)
  }

  /** The entries of `s` the glob pattern matches, in listing order. */
  function Filter(s: seq<Path>, matches: Path -> bool): (r: seq<Path>)
    ensures |r| <= |s|
    ensures forall x :: x in r <==> x in s && matches(x)
  {
    if s == [] then []
    else (if matches(s[0]) then [s[0]] else []) + Filter(s[1..], matches)
  }

  /** `path.glob(pattern)` for a pattern without `**`: the directory's own
      entries that match. */
  function Glob(fs: Tree, p: Path, matches: Path -> bool): (r: seq<Path>)
    ensures forall x :: x in r <==> x in Listing(fs, p) && matches(x)
    ensures !IsDir(fs, p) ==> r == []
  {
    Filter(Listing(fs, p), matches)
  }

  /** `_rglob_follow_symlinks(p, pattern)`: the directory's own matches, then
      the walk of every descent of its entries, in listing order. */
  function Walk(fs: Tree, rank: Path -> nat, matches: Path -> bool, p: Path): seq<Path>
    requires Ranked(fs, rank)
    decreases rank(p), 2, 0
  {
    Glob(fs, p, matches) + WalkFrom(fs, rank, matches, p, 0)
  }

  /** The walks of the descents of `p`'s entries from the i-th on, one after
      the other. */
  function WalkFrom(fs: Tree, rank: Path -> nat, matches: Path -> bool, p: Path, i: nat): seq<Path>
    requires Ranked(fs, rank)
    requires i <= |Listing(fs, p)|
    decreases rank(p), 1, |Listing(fs, p)| - i
  {
    if i == |Listing(fs, p)| then []
    else EntryWalk(fs, rank, matches, p, i) + WalkFrom(fs, rank, matches, p, i + 1)
  }

  /** What the i-th entry of `p` contributes: the walk of its descent, or
      nothing. */
  function EntryWalk(fs: Tree, rank: Path -> nat, matches: Path -> bool, p: Path, i: nat): seq<Path>
    requires Ranked(fs, rank)
    requires i < |Listing(fs, p)|
    decreases rank(p), 0, 0
  {
    match Descent(fs, Listing(fs, p)[i])
    case None => []
    case Some(q) => Walk(fs, rank, matches, q)
  }

  /** Every path the walk yields satisfies the glob pattern. */
  lemma {:induction false} WalkMatches(fs: Tree, rank: Path -> nat, matches: Path -> bool, p: Path)
    requires Ranked(fs, rank)
    ensures forall x :: x in Walk(fs, rank, matches, p) ==> matches(x)
    decreases rank(p), 2, 0
  {
    WalkFromMatches(fs, rank, matches, p, 0);
  }

  lemma {:induction false} WalkFromMatches(fs: Tree, rank: Path -> nat, matches: Path -> bool, p: Path, i: nat)
    requires Ranked(fs, rank)
    requires i <= |Listing(fs, p)|
    ensures forall x :: x in WalkFrom(fs, rank, matches, p, i) ==> matches(x)
    decreases rank(p), 1, |Listing(fs, p)| - i
  {
    if i < |Listing(fs, p)| {
      match Descent(fs, Listing(fs, p)[i]) {
        case None =>
        case Some(q) => WalkMatches(fs, rank, matches, q);
      }
      WalkFromMatches(fs, rank, matches, p, i + 1);
    }
  }

  /** Every path that comes out of the walk of the entries from the i-th on
      is contributed by one of those entries (the converse is
      `WalkFromInfix`). */
  lemma {:induction false} WalkFromSource(fs: Tree, rank: Path -> nat, matches: Path -> bool, p: Path, i: nat, x: Path)
      returns (j: nat)
    requires Ranked(fs, rank)
    requires i <= |Listing(fs, p)|
    requires x in WalkFrom(fs, rank, matches, p, i)
    ensures i <= j < |Listing(fs, p)| && x in EntryWalk(fs, rank, matches, p, j)
    decreases |Listing(fs, p)| - i
  {
    assert i < |Listing(fs, p)|;
    var here := EntryWalk(fs, rank, matches, p, i);
    var rest := WalkFrom(fs, rank, matches, p, i + 1);
    assert WalkFrom(fs, rank, matches, p, i) == here + rest;
    if x in here {
      j := i;
    } else {
      j := WalkFromSource(fs, rank, matches, p, i + 1, x);
    }
  }

  /** A directory's own glob matches open its walk. */
  lemma OwnMatchesFirst(fs: Tree, rank: Path -> nat, matches: Path -> bool, p: Path)
    requires Ranked(fs, rank)
    ensures Glob(fs, p, matches) <= Walk(fs, rank, matches, p)
  {
  }

  /** Everything after a directory's own matches comes from the walk of one
      of its subdirectories or link targets, returned as `e`. */
  lemma LaterMatchFromDescent(fs: Tree, rank: Path -> nat, matches: Path -> bool, p: Path, i: int) returns (e: Path)
    requires Ranked(fs, rank)
    requires |Glob(fs, p, matches)| <= i < |Walk(fs, rank, matches, p)|
    ensures e in Listing(fs, p) && Descent(fs, e).Some?
    ensures Walk(fs, rank, matches, p)[i] in Walk(fs, rank, matches, Descent(fs, e).value)
  {
    var w := Walk(fs, rank, matches, p);
    var g := Glob(fs, p, matches);
    var rest := WalkFrom(fs, rank, matches, p, 0);
    assert w == g + rest;
    assert w[i] == rest[i - |g|];
    var j := WalkFromSource(fs, rank, matches, p, 0, w[i]);
    e := Listing(fs, p)[j];
  }

  /** `str(path.parent)` agrees with the tree: an entry listed by a directory
      has that directory as parent. */
  ghost predicate ParentsConsistent(fs: Tree, parentOf: Path -> Path)
  {
    forall d, c :: d in fs && fs[d].Dir? && c in fs[d].entries ==> parentOf(c) == d
  }

  /** The walk of the entries from the i-th on contains, contiguously, what
      each of them contributes. */
  lemma WalkFromInfix(fs: Tree, rank: Path -> nat, matches: Path -> bool, p: Path, i: nat, k: nat)
      returns (a: seq<Path>, b: seq<Path>)
    requires Ranked(fs, rank)
    requires i <= k < |Listing(fs, p)|
    ensures WalkFrom(fs, rank, matches, p, i) == a + EntryWalk(fs, rank, matches, p, k) + b
    decreases k - i
  {
    var here := EntryWalk(fs, rank, matches, p, i);
    WalkFromStep(fs, rank, matches, p, i);
    if k == i {
      a, b := [], WalkFrom(fs, rank, matches, p, i + 1);
      assert a + here == here;
    } else {
      var a', b' := WalkFromInfix(fs, rank, matches, p, i + 1, k);
      ConcatAssoc(here, a', EntryWalk(fs, rank, matches, p, k), b');
      a, b := here + a', b';
    }
  }

  /** One step of the walk over a directory's entries. */
  lemma WalkFromStep(fs: Tree, rank: Path -> nat, matches: Path -> bool, p: Path, i: nat)
    requires Ranked(fs, rank)
    requires i < |Listing(fs, p)|
    ensures WalkFrom(fs, rank, matches, p, i) == EntryWalk(fs, rank, matches, p, i) + WalkFrom(fs, rank, matches, p, i + 1)
  {
  }

  /** A real directory's own glob matches, which open its walk, all have
      that directory as their parent. */
  lemma OwnMatchesHaveParent(fs: Tree, rank: Path -> nat, matches: Path -> bool, parentOf: Path -> Path, t: Path)
    requires Ranked(fs, rank)
    requires ParentsConsistent(fs, parentOf) && t in fs && fs[t].Dir?
    ensures forall x :: x in Walk(fs, rank, matches, t)[..|Glob(fs, t, matches)|] ==> parentOf(x) == t
  {
    var g := Glob(fs, t, matches);
    assert Walk(fs, rank, matches, t)[..|g|] == g;
    forall x | x in g ensures parentOf(x) == t {
      assert x in Listing(fs, t) && Listing(fs, t) == fs[t].entries;
    }
  }

  /** A symbolic link to a directory is walked at its target: the target's
      whole walk appears, contiguously, inside the walk of the directory that
      lists the link (and, by `OwnMatchesHaveParent`, the target's own
      matches have the target, not the link, as their parent). */
  lemma SymlinkWalkedAtTarget(fs: Tree, rank: Path -> nat, matches: Path -> bool, p: Path, link: Path, t: Path)
    requires Ranked(fs, rank)
    requires link in Listing(fs, p) && link in fs && fs[link] == Symlink(t) && IsDir(fs, t)
    ensures exists a, b :: Walk(fs, rank, matches, p) == a + Walk(fs, rank, matches, t) + b
  {
    var k := IndexOf(Listing(fs, p), link);
    var a, b := WalkFromInfix(fs, rank, matches, p, 0, k);
    assert EntryWalk(fs, rank, matches, p, k) == Walk(fs, rank, matches, t) by {
      assert Descent(fs, link) == Some(t);
    }
    InfixRegroup(Walk(fs, rank, matches, p), Glob(fs, p, matches), a, Walk(fs, rank, matches, t), b);
  }

  /** A real subdirectory is walked at its own path: its whole walk appears,
      contiguously, inside the walk of the directory that lists it. */
  lemma SubdirectoryWalked(fs: Tree, rank: Path -> nat, matches: Path -> bool, p: Path, d: Path)
    requires Ranked(fs, rank)
    requires d in Listing(fs, p) && d in fs && fs[d].Dir?
    ensures exists a, b :: Walk(fs, rank, matches, p) == a + Walk(fs, rank, matches, d) + b
  {
    var k := IndexOf(Listing(fs, p), d);
    var a, b := WalkFromInfix(fs, rank, matches, p, 0, k);
    assert EntryWalk(fs, rank, matches, p, k) == Walk(fs, rank, matches, d) by {
      assert Descent(fs, d) == Some(d);
    }
    InfixRegroup(Walk(fs, rank, matches, p), Glob(fs, p, matches), a, Walk(fs, rank, matches, d), b);
  }

  /** An entry that is missing, a regular file, a dangling link or a link to
      anything but a directory contributes nothing to the walk. */
  lemma NonDirectoryContributesNothing(fs: Tree, rank: Path -> nat, matches: Path -> bool, p: Path, k: nat)
    requires Ranked(fs, rank)
    requires k < |Listing(fs, p)|
    requires var e := Listing(fs, p)[k];
      e !in fs || fs[e].File? || (fs[e].Symlink? && !IsDir(fs, fs[e].target))
    ensures EntryWalk(fs, rank, matches, p, k) == []
  {
  }

  /** A position of `x` in `s`. */
  lemma IndexOf(s: seq<Path>, x: Path) returns (k: int)
    requires x in s
    ensures 0 <= k < |s| && s[k] == x
  {
    k :| 0 <= k < |s| && s[k] == x;
  }

  /** Concatenation regrouped. */
  lemma ConcatAssoc(x: seq<Path>, a: seq<Path>, e: seq<Path>, b: seq<Path>)
    ensures x + (a + e + b) == (x + a) + e + b
  {
  }

  /** Regrouping a concatenation exposes `inner` as an infix. */
  lemma InfixRegroup(w: seq<Path>, g: seq<Path>, a: seq<Path>, inner: seq<Path>, b: seq<Path>)
    requires w == g + (a + inner + b)
    ensures exists a', b' :: w == a' + inner + b'
  {
    ConcatAssoc(g, a, inner, b);
  }

  // ---------------------------------------------------------------------
  // Grouping by parent directory
  // ---------------------------------------------------------------------

  /** One element of `list_files`' result: `(subdir, [], files)`. */
  datatype Group = Group(parent: Path, subdirs: seq<Path>, files: seq<Path>)

  /** The distinct parents of `paths`, in order of first occurrence: the key
      order of an insertion-ordered dict filled while reading `paths`. */
  function DistinctParents(paths: seq<Path>, parentOf: Path -> Path): seq<Path>
  {
    if paths == [] then []
    else
      var d := DistinctParents(paths[..|paths| - 1], parentOf);
      var k := parentOf(paths[|paths| - 1]);
      if k in d then d else d + [k]
  }

  /** The absolute forms of the paths whose parent is `k`, in walk order and
      with repetitions kept. */
  function FilesUnder(paths: seq<Path>, parentOf: Path -> Path, absolute: Path -> Path, k: Path): seq<Path>
  {
    if paths == [] then []
    else
      var last := paths[|paths| - 1];
      FilesUnder(paths[..|paths| - 1], parentOf, absolute, k) + (if parentOf(last) == k then [absolute(last)] else [])
  }

  /** The keys are free of repetitions, and they are exactly the parents of
      the paths read. */
  lemma {:induction false} DistinctParentsSpec(paths: seq<Path>, parentOf: Path -> Path)
    ensures forall i, j :: 0 <= i < j < |DistinctParents(paths, parentOf)| ==>
      DistinctParents(paths, parentOf)[i] != DistinctParents(paths, parentOf)[j]
    ensures forall x :: x in paths ==> parentOf(x) in DistinctParents(paths, parentOf)
    ensures forall k :: k in DistinctParents(paths, parentOf) ==> exists x :: x in paths && parentOf(x) == k
  {
    if paths != [] {
      var init := paths[..|paths| - 1];
      DistinctParentsSpec(init, parentOf);
      assert forall x :: x in paths ==> x in init || x == paths[|paths| - 1];
      forall k | k in DistinctParents(paths, parentOf)
        ensures exists x :: x in paths && parentOf(x) == k
      {
        if k in DistinctParents(init, parentOf) {
          var x :| x in init && parentOf(x) == k;
          assert x in paths;
        } else {
          assert paths[|paths| - 1] in paths;
        }
      }
    }
  }

  /** A parent has files exactly when it is one of the keys; every path read
      is among its parent's files, in absolute form; no parent has more files
      than paths were read. */
  lemma {:induction false} FilesUnderSpec(paths: seq<Path>, parentOf: Path -> Path, absolute: Path -> Path, k: Path)
    ensures FilesUnder(paths, parentOf, absolute, k) != [] <==> k in DistinctParents(paths, parentOf)
    ensures forall x :: x in paths && parentOf(x) == k ==> absolute(x) in FilesUnder(paths, parentOf, absolute, k)
    ensures |FilesUnder(paths, parentOf, absolute, k)| <= |paths|
  {
    if paths != [] {
      var init := paths[..|paths| - 1];
      FilesUnderSpec(init, parentOf, absolute, k);
      assert forall x :: x in paths ==> x in init || x == paths[|paths| - 1];
    }
  }

  /** The specification of the grouping: one group per distinct parent in
      first-occurrence order, holding that parent's files. */
  function Grouped(paths: seq<Path>, parentOf: Path -> Path, absolute: Path -> Path): seq<Group>
  {
    var keys := DistinctParents(paths, parentOf);
    seq(|keys|, i requires 0 <= i < |keys| => Group(keys[i], [], FilesUnder(paths, parentOf, absolute, keys[i])))
  }

  /** Reading the n-th path adds its parent to the distinct parents unless
      it is already there. */
  lemma DistinctParentsSnoc(paths: seq<Path>, parentOf: Path -> Path, n: nat)
    requires n < |paths|
    ensures DistinctParents(paths[..n + 1], parentOf)
         == if parentOf(paths[n]) in DistinctParents(paths[..n], parentOf) then DistinctParents(paths[..n], parentOf)
            else DistinctParents(paths[..n], parentOf) + [parentOf(paths[n])]
  {
    var next := paths[..n + 1];
    assert next[..|next| - 1] == paths[..n] && next[|next| - 1] == paths[n];
  }

  /** Reading the n-th path appends it, in absolute form, to its parent's
      files and to no other. */
  lemma FilesUnderSnoc(paths: seq<Path>, parentOf: Path -> Path, absolute: Path -> Path, n: nat, k: Path)
    requires n < |paths|
    ensures FilesUnder(paths[..n + 1], parentOf, absolute, k)
         == FilesUnder(paths[..n], parentOf, absolute, k) + (if parentOf(paths[n]) == k then [absolute(paths[n])] else [])
  {
    var next := paths[..n + 1];
    assert next[..|next| - 1] == paths[..n] && next[|next| - 1] == paths[n];
  }

  /** The grouping loop of `list_files`: a dict from parent to files, filled
      in walk order, then turned into triples. */
  method GroupByParent(paths: seq<Path>, parentOf: Path -> Path, absolute: Path -> Path) returns (groups: seq<Group>)
    ensures groups == Grouped(paths, parentOf, absolute)
  {
    var order: seq<Path> := [];
    var pathDict: map<Path, seq<Path>> := map[];
    assert pathDict == FilesByParent(paths, parentOf, absolute, 0);
    for i := 0 to |paths|
      invariant order == DistinctParents(paths[..i], parentOf)
      invariant pathDict == FilesByParent(paths, parentOf, absolute, i)
    {
      var parent := parentOf(paths[i]);
      ghost var before := pathDict;
      DistinctParentsSnoc(paths, parentOf, i);
      FilesByParentStep(paths, parentOf, absolute, i);
      if parent !in pathDict {
        pathDict := pathDict[parent := []];
        order := order + [parent];
      }
      assert pathDict[parent] == Entry(before, parent);
      assert pathDict[parent := pathDict[parent] + [absolute(paths[i])]]
          == before[parent := Entry(before, parent) + [absolute(paths[i])]];
      pathDict := pathDict[parent := pathDict[parent] + [absolute(paths[i])]];
    }
    GroupedFromDict(paths, parentOf, absolute);
    groups := GroupsOf(order, pathDict);
  }

  /** `[(k, [], v) for k, v in path_dict.items()]`, in insertion order. */
  function GroupsOf(order: seq<Path>, dict: map<Path, seq<Path>>): (groups: seq<Group>)
    requires forall k :: k in order ==> k in dict
    ensures |groups| == |order|
    ensures forall i :: 0 <= i < |order| ==> groups[i] == Group(order[i], [], dict[order[i]])
  {
    seq(|order|, i requires 0 <= i < |order| => Group(order[i], [], dict[order[i]]))
  }

  /** The dict left after the last path, read in insertion order, is the
      grouping's specification. */
  lemma GroupedFromDict(paths: seq<Path>, parentOf: Path -> Path, absolute: Path -> Path)
    ensures forall k :: k in DistinctParents(paths[..|paths|], parentOf) ==> k in FilesByParent(paths, parentOf, absolute, |paths|)
    ensures GroupsOf(DistinctParents(paths[..|paths|], parentOf), FilesByParent(paths, parentOf, absolute, |paths|))
         == Grouped(paths, parentOf, absolute)
  {
    assert paths[..|paths|] == paths;
  }

  /** A key's list in the dict, or the empty list it starts from. */
  function Entry(dict: map<Path, seq<Path>>, k: Path): seq<Path>
  {
    if k in dict then dict[k] else []
  }

  /** The dict the grouping loop holds after reading the first n paths. */
  ghost function FilesByParent(paths: seq<Path>, parentOf: Path -> Path, absolute: Path -> Path, n: nat): map<Path, seq<Path>>
    requires n <= |paths|
  {
    map k | k in DistinctParents(paths[..n], parentOf) :: FilesUnder(paths[..n], parentOf, absolute, k)
  }

  /** Reading the n-th path appends it to its parent's entry, creating the
      entry first when the parent is new, and changes no other entry. */
  lemma FilesByParentStep(paths: seq<Path>, parentOf: Path -> Path, absolute: Path -> Path, n: nat)
    requires n < |paths|
    ensures FilesByParent(paths, parentOf, absolute, n + 1)
         == FilesByParent(paths, parentOf, absolute, n)[parentOf(paths[n]) := Entry(FilesByParent(paths, parentOf, absolute, n), parentOf(paths[n])) + [absolute(paths[n])]]
  {
    var before := FilesByParent(paths, parentOf, absolute, n);
    var after := FilesByParent(paths, parentOf, absolute, n + 1);
    var parent, f := parentOf(paths[n]), absolute(paths[n]);
    var expected := before[parent := Entry(before, parent) + [f]];
    DistinctParentsSnoc(paths, parentOf, n);
    assert after.Keys == expected.Keys;
    forall k | k in after
      ensures after[k] == expected[k]
    {
      FilesUnderSnoc(paths, parentOf, absolute, n, k);
      if k == parent && parent !in before {
        FilesUnderSpec(paths[..n], parentOf, absolute, k);
      }
    }
    assert after == expected;
  }


  /** Total number of files over a list of groups. */
  function Total(gs: seq<Group>): nat
  {
    if gs == [] then 0 else Total(gs[..|gs| - 1]) + |gs[|gs| - 1].files|
  }

  /** Two group lists that differ only in one group having one more file
      differ by one in total. */
  lemma {:induction false} TotalBump(a: seq<Group>, b: seq<Group>, j: int)
    requires |a| == |b|
    requires forall i :: 0 <= i < |a| ==> |b[i].files| == |a[i].files| + (if i == j then 1 else 0)
    ensures Total(b) == Total(a) + (if 0 <= j < |a| then 1 else 0)
    decreases |a|
  {
    if a != [] {
      TotalBump(a[..|a| - 1], b[..|b| - 1], j);
    }
  }

  /** Reading one more path whose parent was already seen appends it to
      that parent's group and leaves the other groups and their order as
      they were. */
  lemma GroupedStepSeen(paths: seq<Path>, parentOf: Path -> Path, absolute: Path -> Path)
    requires paths != []
    requires parentOf(paths[|paths| - 1]) in DistinctParents(paths[..|paths| - 1], parentOf)
    ensures var init := paths[..|paths| - 1];
      var last := paths[|paths| - 1];
      var before := Grouped(init, parentOf, absolute);
      var after := Grouped(paths, parentOf, absolute);
      && |after| == |before|
      && forall i :: 0 <= i < |before| ==>
           && after[i].parent == before[i].parent
           && after[i].files == before[i].files + (if before[i].parent == parentOf(last) then [absolute(last)] else [])
  {
    var init := paths[..|paths| - 1];
    assert DistinctParents(paths, parentOf) == DistinctParents(init, parentOf);
  }

  /** Reading one more path with a parent not seen before opens a new group,
      holding just that path, after all the others. */
  lemma GroupedStepNew(paths: seq<Path>, parentOf: Path -> Path, absolute: Path -> Path)
    requires paths != []
    requires parentOf(paths[|paths| - 1]) !in DistinctParents(paths[..|paths| - 1], parentOf)
    ensures var init := paths[..|paths| - 1];
      var last := paths[|paths| - 1];
      Grouped(paths, parentOf, absolute) == Grouped(init, parentOf, absolute) + [Group(parentOf(last), [], [absolute(last)])]
  {
    var init := paths[..|paths| - 1];
    var last := paths[|paths| - 1];
    var k := parentOf(last);
    var before := Grouped(init, parentOf, absolute);
    var after := Grouped(paths, parentOf, absolute);
    var d := DistinctParents(init, parentOf);
    assert DistinctParents(paths, parentOf) == d + [k];
    FilesUnderSpec(init, parentOf, absolute, k);
    forall i | 0 <= i < |before| ensures after[i] == before[i] {
      assert d[i] != k;
    }
    assert after[|before|] == Group(k, [], [absolute(last)]);
  }

  /** Grouping neither loses nor duplicates a walked path: the group sizes add
      up to the number of paths walked. */
  lemma {:induction false} GroupSizesSum(paths: seq<Path>, parentOf: Path -> Path, absolute: Path -> Path)
    ensures Total(Grouped(paths, parentOf, absolute)) == |paths|
    decreases |paths|
  {
    if paths != [] {
      var init := paths[..|paths| - 1];
      var last := paths[|paths| - 1];
      var k := parentOf(last);
      GroupSizesSum(init, parentOf, absolute);
      var before := Grouped(init, parentOf, absolute);
      var after := Grouped(paths, parentOf, absolute);
      var d := DistinctParents(init, parentOf);
      if k in d {
        GroupedStepSeen(paths, parentOf, absolute);
        DistinctParentsSpec(init, parentOf);
        var j :| 0 <= j < |d| && d[j] == k;
        assert before[j].parent == k;
        forall i | 0 <= i < |before|
          ensures |after[i].files| == |before[i].files| + (if i == j then 1 else 0)
        {
          assert before[i].parent == d[i];
        }
        TotalBump(before, after, j);
      } else {
        GroupedStepNew(paths, parentOf, absolute);
        assert after[..|after| - 1] == before;
      }
    }
  }

  /** Keys read from a prefix of the walk come first, in the same order, in
      the keys of the whole walk: the dict keeps insertion order. */
  lemma {:induction false} DistinctParentsPrefix(paths: seq<Path>, parentOf: Path -> Path, n: nat)
    requires n <= |paths|
    ensures DistinctParents(paths[..n], parentOf) <= DistinctParents(paths, parentOf)
    decreases |paths|
  {
    if n < |paths| {
      var init := paths[..|paths| - 1];
      assert init[..n] == paths[..n];
      DistinctParentsPrefix(init, parentOf, n);
    } else {
      assert paths[..n] == paths;
    }
  }

  /** The shape of `list_files`' result: every triple has a distinct parent,
      an empty middle component and at least one file, and every walked path
      is filed, in absolute form, under its own parent. */
  lemma GroupedShape(paths: seq<Path>, parentOf: Path -> Path, absolute: Path -> Path)
    ensures forall i, j :: 0 <= i < j < |Grouped(paths, parentOf, absolute)| ==>
      Grouped(paths, parentOf, absolute)[i].parent != Grouped(paths, parentOf, absolute)[j].parent
    ensures forall i :: 0 <= i < |Grouped(paths, parentOf, absolute)| ==>
      Grouped(paths, parentOf, absolute)[i].subdirs == [] && Grouped(paths, parentOf, absolute)[i].files != []
    ensures forall x :: x in paths ==>
      exists i :: 0 <= i < |Grouped(paths, parentOf, absolute)|
        && Grouped(paths, parentOf, absolute)[i].parent == parentOf(x)
        && absolute(x) in Grouped(paths, parentOf, absolute)[i].files
  {
    var gs := Grouped(paths, parentOf, absolute);
    var keys := DistinctParents(paths, parentOf);
    DistinctParentsSpec(paths, parentOf);
    forall i | 0 <= i < |gs| ensures gs[i].files != [] {
      FilesUnderSpec(paths, parentOf, absolute, keys[i]);
      assert keys[i] in keys;
    }
    forall x | x in paths
      ensures exists i :: 0 <= i < |gs| && gs[i].parent == parentOf(x) && absolute(x) in gs[i].files
    {
      assert parentOf(x) in keys;
      var i :| 0 <= i < |keys| && keys[i] == parentOf(x);
      FilesUnderSpec(paths, parentOf, absolute, keys[i]);
      assert gs[i].parent == parentOf(x) && absolute(x) in gs[i].files;
    }
  }

  /** `list_files(str_pattern, instance_data_root)`. A missing root argument
      is refused before any traversal; a root that is missing or is not a
      directory makes `iterdir` raise; otherwise the walk from the root is
      grouped by parent. */
  method ListFiles(fs: Tree, rank: Path -> nat, matches: Path -> bool, parentOf: Path -> Path, absolute: Path -> Path,
                   root: Option<Path>) returns (r: Result<seq<Group>>)
    requires Ranked(fs, rank)
    ensures root.None? ==> r == Err(ConfigError("instance_data_root must be specified."))
    ensures root.Some? && !Exists(fs, root.value) && LinkLoop(fs, root.value, MaxSymlinkHops) ==>
      r == Err(SymlinkLoop(root.value))
    ensures root.Some? && !Exists(fs, root.value) && !LinkLoop(fs, root.value, MaxSymlinkHops) ==>
      r == Err(FileNotFound(root.value))
    ensures root.Some? && Exists(fs, root.value) && !IsDir(fs, root.value) ==> r == Err(NotADirectory(root.value))
    ensures root.Some? && IsDir(fs, root.value) ==> r == Ok(Grouped(Walk(fs, rank, matches, root.value), parentOf, absolute))
  {
    if root.None? {
      return Err(ConfigError("instance_data_root must be specified."));
    }
    var p := root.value;
    if !Exists(fs, p) {
      if LinkLoop(fs, p, MaxSymlinkHops) {
        return Err(SymlinkLoop(p));
      }
      return Err(FileNotFound(p));
    }
    if !IsDir(fs, p) {
      return Err(NotADirectory(p));
    }
    var paths := Walk(fs, rank, matches, p);
    var groups := GroupByParent(paths, parentOf, absolute);
    return Ok(groups);
  }

  // ---------------------------------------------------------------------
  // read_image
  // ---------------------------------------------------------------------

  /** `read_image(filepath)`: every NUL character is dropped from the path
      before the image is opened; `open` stands for `Image.open`, whose
      exception is re-raised unchanged. */
  function ReadImage<I>(open: Path -> Result<I>, filepath: Path): (r: Result<I>)
    ensures '\0' !in filepath ==> r == open(filepath)
  {
    open(Text.RemoveChar(filepath, '\0'))
  }

  /** A NUL inserted anywhere in the path does not change which file is
      opened. */
  lemma ReadImageIgnoresNul<I>(open: Path -> Result<I>, before: Path, after: Path)
    ensures ReadImage(open, before + "\0" + after) == ReadImage(open, before + after)
  {
    Text.RemoveCharAppend(before + "\0", after, '\0');
    Text.RemoveCharAppend(before, "\0", '\0');
    Text.RemoveCharAppend(before, after, '\0');
    assert Text.RemoveChar("\0", '\0') == [];
    assert Text.RemoveChar(before, '\0') + [] == Text.RemoveChar(before, '\0');
  }

  // ---------------------------------------------------------------------
  // exists / delete / create_directory over a store of paths
  // ---------------------------------------------------------------------

  datatype Kind = RegularFile | Directory

  /** The directories `os.makedirs(p)` needs: every '/'-separated proper
      prefix of `p`, and `p` itself. */
  function DirsFor(p: Path): (r: set<Path>)
    ensures p != [] ==> p in r
    ensures forall q :: q in r ==> q <= p && q != []
    ensures forall i :: 0 < i < |p| && p[i] == '/' ==> p[..i] in r
    ensures forall q :: q in r ==> q == p || (|q| < |p| && p[|q|] == '/')
  {
    (set i | 0 < i < |p| && p[i] == '/' :: p[..i]) + (if p == [] then {} else {p})
  }

  /** `os.path.split(q)[0]`: the text before the last '/'. It is empty when
      there is no '/' after the first character; the root `/` always
      exists, so the walk up in `TopMissing` stops there either way. */
  function Head(q: Path): (h: Path)
    ensures h == [] || (0 < |h| < |q| && q[|h|] == '/' && h == q[..|h|])
    ensures forall j :: |h| < j < |q| ==> q[j] != '/'
  {
    var i := Text.LastIndexOf(q, '/');
    if i > 0 then q[..i] else []
  }

  /** The first directory `os.makedirs(q)` tries to create: it climbs from
      `q` while the parent does not exist, and makes the topmost missing
      one first. */
  function TopMissing(entries: map<Path, Kind>, q: Path): (t: Path)
    ensures t == q || (0 < |t| < |q| && q[|t|] == '/' && t == q[..|t|])
    ensures q !in entries ==> t !in entries
    ensures Head(t) == [] || Head(t) in entries
    decreases |q|
  {
    var h := Head(q);
    if h != [] && h !in entries then
      var t := TopMissing(entries, h);
      assert t == h || (h[|t|] == '/' && t == h[..|t|]);
      assert q[..|h|][..|t|] == q[..|t|];
      t
    else q
  }

  /** A store that a real file system can hold: every directory above an
      entry is present, as a directory. */
  predicate Closed(entries: map<Path, Kind>)
  {
    forall e, d :: e in entries && d in DirsFor(e) && d != e ==> d in entries && entries[d] == Directory
  }

  /** The store after `os.makedirs(p, exist_ok=True)`, or the error it raises. */
  function MakeDirs(entries: map<Path, Kind>, p: Path): (r: Result<map<Path, Kind>>)
    ensures p == [] ==> r == Err(FileNotFound(p))
    ensures p != [] && p in entries && entries[p] == Directory ==> r == Ok(entries)
    ensures p != [] && p in entries && entries[p] == RegularFile ==> r == Err(FileExists(p))
    ensures r.Ok? ==> p in r.value && r.value[p] == Directory
    ensures r.Ok? ==> forall q :: q in entries ==> q in r.value && r.value[q] == entries[q]
    ensures r.Ok? ==> forall q :: q in r.value && q !in entries ==> q in DirsFor(p) && r.value[q] == Directory
    ensures p != [] && p !in entries && (exists q :: q in DirsFor(p) && q in entries && entries[q] == RegularFile) ==>
      r == Err(NotADirectory(TopMissing(entries, p)))
    ensures r.Err? && r.error.NotADirectory? ==> r.error.path in DirsFor(p) && r.error.path !in entries
    ensures p != [] && p !in entries && (forall q :: q in DirsFor(p) && q in entries ==> entries[q] == Directory) ==>
      r.Ok? && forall q :: q in DirsFor(p) ==> q in r.value && r.value[q] == Directory
  {
    if p == [] then Err(FileNotFound(p))
    else if p in entries && entries[p] == Directory then Ok(entries)
    else if p in entries then Err(FileExists(p))
    else if exists q :: q in DirsFor(p) && q in entries && entries[q] == RegularFile then
      var t := TopMissing(entries, p);
      assert t == p || p[..|t|] in DirsFor(p);
      Err(NotADirectory(t))
    else Ok(entries + map q | q in DirsFor(p) :: Directory)
  }

  /** Creating a directory twice changes nothing the second time. */
  lemma MakeDirsIdempotent(entries: map<Path, Kind>, p: Path)
    requires MakeDirs(entries, p).Ok?
    ensures MakeDirs(MakeDirs(entries, p).value, p) == MakeDirs(entries, p)
  {
  }

  /** The climb of `os.makedirs` never reaches an existing entry on the
      path: the first directory it makes lies below every such entry. */
  lemma {:induction false} TopMissingBelowEntry(entries: map<Path, Kind>, q: Path, f: Path)
    requires q !in entries && f in entries
    requires 0 < |f| < |q| && q[|f|] == '/' && f == q[..|f|]
    ensures |TopMissing(entries, q)| > |f|
    decreases |q|
  {
    var h := Head(q);
    if h != [] && h !in entries {
      assert h[|f|] == '/' && f == h[..|f|];
      TopMissingBelowEntry(entries, h, f);
    }
  }

  /** Nothing in a store a file system can hold lies below a regular file. */
  lemma NothingBelowFile(entries: map<Path, Kind>, f: Path)
    requires Closed(entries) && f in entries && entries[f] == RegularFile
    ensures forall e :: e in entries && 0 < |f| < |e| && f == e[..|f|] ==> e[|f|] != '/'
  {
  }

  /** In a store a file system can hold, a file above the requested path
      makes `os.makedirs` fail on the directory just below that file: the
      topmost missing one, whose parent is the file. */
  lemma MakeDirsBlockedBelowFile(entries: map<Path, Kind>, p: Path, f: Path)
    requires Closed(entries)
    requires p !in entries
    requires f in DirsFor(p) && f in entries && entries[f] == RegularFile
    ensures MakeDirs(entries, p) == Err(NotADirectory(TopMissing(entries, p)))
    ensures TopMissing(entries, p) in DirsFor(p) && TopMissing(entries, p) !in entries
    ensures Head(TopMissing(entries, p)) == f
  {
    var t := TopMissing(entries, p);
    TopMissingBelowEntry(entries, p, f);
    assert t == p[..|t|];
    assert t[..|f|] == f && t[|f|] == '/';
    var h := Head(t);
    assert h[..|f|] == f;
    NothingBelowFile(entries, f);
  }

  /** `os.makedirs("f/a/x")` below the file "f" fails on "f/a"; the store
      is one `MakeDirsBlockedBelowFile` applies to. */
  lemma MakeDirsUnderFileExample()
    ensures MakeDirs(map["f" := RegularFile], "f/a/x") == Err(NotADirectory("f/a"))
    ensures Closed(map["f" := RegularFile]) && "f" in DirsFor("f/a/x")
  {
    var entries := map["f" := RegularFile];
    assert Text.LastIndexOf("f/a/x", '/') == 3;
    assert Head("f/a/x") == "f/a";
    assert Text.LastIndexOf("f/a", '/') == 1;
    assert Head("f/a") == "f";
    assert TopMissing(entries, "f/a") == "f/a";
    assert TopMissing(entries, "f/a/x") == "f/a";
    assert "f/a/x"[..1] == "f";
    assert "f" in DirsFor("f/a/x");
  }

  /** The store behind `exists`, `delete` and `create_directory`. */
  class FileStore {
    var entries: map<Path, Kind>

    constructor (initial: map<Path, Kind>)
      ensures entries == initial
    {
      entries := initial;
    }

    /** `exists(filepath)`. */
    predicate Exists(p: Path)
      reads this
    {
      p in entries
    }

    /** `delete(filepath)`: a missing path raises FileNotFoundError; a
        directory makes `os.remove` raise; a file is removed. */
    method Delete(p: Path) returns (r: Result<()>)
      modifies this
      ensures !old(Exists(p)) ==> r == Err(FileNotFound(p)) && entries == old(entries)
      ensures old(Exists(p)) && old(entries)[p] == Directory ==> r == Err(IsADirectory(p)) && entries == old(entries)
      ensures old(Exists(p)) && old(entries)[p] == RegularFile ==> r == Ok(()) && entries == old(entries) - {p}
      ensures r.Ok? ==> !Exists(p)
    {
      if p !in entries {
        return Err(FileNotFound(p));
      }
      if entries[p] == Directory {
        return Err(IsADirectory(p));
      }
      entries := entries - {p};
      return Ok(());
    }

    /** `create_directory(directory_path)`. */
    method CreateDirectory(p: Path) returns (r: Result<()>)
      modifies this
      ensures MakeDirs(old(entries), p).Ok? ==> r == Ok(()) && entries == MakeDirs(old(entries), p).value
      ensures MakeDirs(old(entries), p).Err? ==> r == Err(MakeDirs(old(entries), p).error) && entries == old(entries)
      ensures r.Ok? ==> Exists(p)
    {
      var made := MakeDirs(entries, p);
      if made.Err? {
        return Err(made.error);
      }
      entries := made.value;
      return Ok(());
    }
  }
}

=== FILE: outcomes.dfy ===
/** Failure-carrying results shared by the storage backend and the dataset.
    Each `Error` names the Python exception the modelled code raises. */
module Outcomes {

  datatype Option<+T> = None | Some(value: T)

  datatype Error =
    | ConfigError(reason: string)       // ValueError raised for a missing or unusable argument
    | FileNotFound(path: string)        // FileNotFoundError
    | NotADirectory(path: string)       // NotADirectoryError
    | SymlinkLoop(path: string)         // OSError (ELOOP): too many levels of symbolic links
    | IsADirectory(path: string)        // IsADirectoryError from os.remove on a directory
    | FileExists(path: string)          // FileExistsError from os.makedirs over a file
    | AssetError(path: string)          // the image at path could not be opened or decoded
    | ResizeError(path: string)         // Pillow refuses to resize to a zero-length side
    | EmptyBuckets                      // ValueError from min() over an empty bucket list
    | ZeroDivision                      // ZeroDivisionError from `index % 0`
    | MissingAttribute(name: string)    // AttributeError for an attribute never assigned

  datatype Result<+T> = Ok(value: T) | Err(error: Error)
}

=== FILE: text.dfy ===
/** String operations used by the dataset's caption derivation and the
    backend's path sanitising, each specified by what it does to every
    position of its input. */
module Text {

  /** `m` occurs in `s` starting at position `i`. */
  predicate OccursAt(s: string, m: string, i: int)
  {
    0 <= i && i + |m| <= |s| && s[i..i + |m|] == m
  }

  predicate Contains(s: string, m: string)
  {
    exists i :: 0 <= i <= |s| && OccursAt(s, m, i)
  }

  /** `str.replace(from, to)` for one-character arguments. */
  function ReplaceChar(s: string, from: char, to: char): (r: string)
    ensures |r| == |s|
    ensures forall i :: 0 <= i < |s| ==> r[i] == (if s[i] == from then to else s[i])
    ensures from != to ==> from !in r
  {
    if s == [] then []
    else [if s[0] == from then to else s[0]] + ReplaceChar(s[1..], from, to)
  }

  /** `str.replace(c, "")`: every occurrence of `c` dropped, the rest kept in order. */
  function RemoveChar(s: string, c: char): (r: string)
    ensures c !in r
    ensures forall d :: d != c ==> multiset(r)[d] == multiset(s)[d]
    ensures |r| == |s| - multiset(s)[c]
    ensures c !in s ==> r == s
  {
    if s == [] then []
    else
      assert s == [s[0]] + s[1..];
      if s[0] == c then RemoveChar(s[1..], c) else [s[0]] + RemoveChar(s[1..], c)
  }

  /** Removing a character distributes over concatenation, so the characters
      that are kept also keep their relative order. */
  lemma {:induction false} RemoveCharAppend(a: string, b: string, c: char)
    ensures RemoveChar(a + b, c) == RemoveChar(a, c) + RemoveChar(b, c)
  {
    if a == [] {
      assert a + b == b;
    } else {
      assert (a + b)[0] == a[0] && (a + b)[1..] == a[1..] + b;
      RemoveCharAppend(a[1..], b, c);
    }
  }

  /** `s.split(m)[0]`: the text before the first occurrence of `m`, or all of
      `s` when `m` does not occur. */
  function CutAt(s: string, m: string): (r: string)
    requires m != []
    ensures r <= s
    ensures forall j :: 0 <= j < |r| ==> !OccursAt(s, m, j)
    ensures r == s || OccursAt(s, m, |r|)
    decreases |s|
  {
    if m <= s then []
    else if s == [] then []
    else
      var rest := CutAt(s[1..], m);
      forall j | 1 <= j <= |s|
        ensures OccursAt(s, m, j) <==> OccursAt(s[1..], m, j - 1)
      {
        OccursShift(s, m, j);
      }
      [s[0]] + rest
  }

  /** An occurrence after the first character is an occurrence in the tail. */
  lemma OccursShift(s: string, m: string, j: int)
    requires s != [] && 1 <= j
    ensures OccursAt(s, m, j) <==> OccursAt(s[1..], m, j - 1)
  {
    if j + |m| <= |s| {
      var here, there := s[j..j + |m|], s[1..][j - 1..j - 1 + |m|];
      assert forall k :: 0 <= k < |m| ==> here[k] == there[k];
      assert here == there;
    }
  }
  /** The cut stops exactly at the first occurrence of the marker. */
  lemma CutAtFirstOccurrence(s: string, m: string, i: int)
    requires m != [] && OccursAt(s, m, i)
    requires forall j :: 0 <= j < i ==> !OccursAt(s, m, j)
    ensures CutAt(s, m) == s[..i]
  {
    var r := CutAt(s, m);
    assert |r| <= i;
    assert r != s;
    assert |r| == i;
  }

  /** Text shorter than the marker is kept whole. */
  lemma CutAtShort(s: string, m: string)
    requires m != [] && |s| < |m|
    ensures CutAt(s, m) == s
  {
  }


  /** The cut text no longer contains the marker, and the cut is exactly at
      the first occurrence. */
  lemma CutAtRemovesMarker(s: string, m: string)
    requires m != []
    ensures !Contains(CutAt(s, m), m)
    ensures Contains(s, m) <==> CutAt(s, m) != s
  {
    var r := CutAt(s, m);
    forall i | 0 <= i <= |r| ensures !OccursAt(r, m, i) {
      if i + |m| <= |r| {
        assert r[i..i + |m|] == s[i..i + |m|];
        assert !OccursAt(s, m, i);
      }
    }
    if r != s {
      assert OccursAt(s, m, |r|);
    }
    if Contains(s, m) {
      var i :| 0 <= i <= |s| && OccursAt(s, m, i);
      assert r != s;
    }
  }

  /** Cutting a text that has no occurrence of `m` leaves no occurrence of
      `m` either, and cutting never introduces an occurrence of another marker. */
  lemma CutAtKeepsAbsence(s: string, m: string, other: string)
    requires m != []
    requires !Contains(s, other)
    ensures !Contains(CutAt(s, m), other)
  {
    var r := CutAt(s, m);
    forall i | 0 <= i <= |r| ensures !OccursAt(r, other, i) {
      if i + |other| <= |r| {
        assert r[i..i + |other|] == s[i..i + |other|];
        assert !OccursAt(s, other, i);
      }
    }
  }

  /** Position of the last `c` in `s`, or -1 (`str.rfind`). */
  function LastIndexOf(s: string, c: char): (r: int)
    ensures -1 <= r < |s|
    ensures r >= 0 ==> s[r] == c
    ensures forall j :: r < j < |s| ==> s[j] != c
  {
    if s == [] then -1
    else if s[|s| - 1] == c then |s| - 1
    else LastIndexOf(s[..|s| - 1], c)
  }

  /** The final component of a '/'-separated path (`PurePath.name`). */
  function BaseName(p: string): (r: string)
    ensures '/' !in r
    ensures |r| <= |p| && r == p[|p| - |r|..]
    ensures |r| == |p| || p[|p| - |r| - 1] == '/'
  {
    var i := LastIndexOf(p, '/');
    p[i + 1..]
  }

  /** `PurePath.stem` of a file name: the name without its last suffix. A
      suffix starts at the last '.', provided that dot is neither the first
      nor the last character of the name. */
  function Stem(name: string): (r: string)
    ensures r <= name
    ensures r == name || (0 < |r| < |name| - 1 && name[|r|] == '.' && '.' !in name[|r| + 1..])
    ensures r != name <==> exists i :: 0 < i < |name| - 1 && name[i] == '.' && '.' !in name[i + 1..]
  {
    var i := LastIndexOf(name, '.');
    if 0 < i < |name| - 1 then name[..i] else name
  }
}
